=== FILE: README.md ===
# brilliantPad storefront — a Dafny model

brilliantPad is a small dog shop built on Next.js and MongoDB. A customer
searches the catalogue and picks dogs by breed tab. They collect the dogs in
a cart and send themselves an invoice, which is stored as `pending`. The
store page then polls the invoice until it reads `paid`, and then empties
the cart.

The repository has two routes to `paid`:

- The invoice page (`src/pages/invoice/[id].tsx`) simulates the payment and
  sends `PATCH /api/invoices/[id]` with status `paid`. This route is not part
  of this model.
- Two Stripe endpoints are modelled here, although no page in the code calls
  them:
  - one opens a checkout session for a stored invoice, with an optional
    number of "Brilliant Pads" at $100 each;
  - the other marks the invoice `paid` once the provider reports the session
    paid.

This project models that core as pure functions over immutable data:

- `Common`: order-preserving filtering, `new Set` de-duplication and
  subsequences, used by the search box and the breed tabs.
- `Text`: the JavaScript string and number behaviour the core relies on:
  - ASCII `toLowerCase`/`toUpperCase`;
  - `includes`;
  - `charAt(0).toUpperCase() + slice(1)`;
  - `Number.prototype.toString` on integers;
  - `parseInt` without a radix: leading white space, one sign, a `0x`
    prefix, the longest digit run, and NaN as `None`.
- `Catalog`: dogs, cart lines and customer data.
- `CartView`: the cart sidebar. It covers the total and the line amounts,
  the quantity each control asks for, and when the invoice button is
  disabled.
- `InvoiceModel`: the invoice document and what its schema does when a
  document is created. That is the required strings, the status enumeration
  and the `pending` and creation-time defaults.
- `InvoiceApi`: the invoice-creation endpoint over a store `map<string, Invoice>`.
- `StorePage`: the store page's handlers and its checkout status
  `idle → sending → sent → paid`, as a step function over events.
- `Checkout`: the checkout-session endpoint. It covers the line items in
  cents, the pad line, the session metadata and its error answers.
- `Payment`: the payment-confirmation endpoint and the checkout-to-payment
  round trip.
- `Tabs`: the breed tabs and the dogs each tab shows.

Whatever the program gets from outside becomes a parameter:

- the HTTP method;
- the fresh document id;
- the clock;
- whether the email was sent;
- the catalogue the checkout populates from;
- the session id the payment provider returns;
- the session it reports;
- the network answers the page receives.

Numbers are unbounded integers and money is whole dollars, as in the seeded
catalogue.

## Model

| member | source | states |
|---|---|---|
| Common.Filter | src/pages/store/index.tsx:72-76 | `Array.prototype.filter`: only elements satisfying the predicate, each taken from the input, and every satisfying input element kept |
| Common.FilterSubseq | src/components/DogTabs.tsx:20-22 | a filter result is an order-preserving subsequence of its input and keeps every copy of a kept element (multiset count) |
| Common.FilterAll | src/pages/store/index.tsx:72-76 | a filter whose predicate holds everywhere returns the input unchanged |
| Common.Dedup | src/components/DogTabs.tsx:17 | `[...new Set(xs)]`: no value twice, every value of the input present, nothing else added |
| Common.DedupSubseq | src/components/DogTabs.tsx:17 | the de-duplicated sequence keeps the input's order (a subsequence of it) |
| Common.DedupFirstAppearance | src/components/DogTabs.tsx:17 | `[...new Set(xs)]` lists values in order of their first occurrence in `xs`: the first indices strictly increase along the result |
| Common.FirstAppearanceUnique | src/components/DogTabs.tsx:17 | two lists of the same values that are both in first-appearance order of `xs` are equal, so the order above fixes the result |
| Text.Lower | src/pages/store/index.tsx:74-75 | `toLowerCase` keeps the length and maps each character on its own |
| Text.LowerIdempotent | src/pages/store/index.tsx:74-75 | lower-casing twice is lower-casing once |
| Text.ContainsIffOccurs | src/pages/store/index.tsx:74-75 | `s.includes(sub)` holds exactly when `sub` occurs at some position of `s` |
| Text.ContainsEmpty | src/pages/store/index.tsx:74-75 | every string includes the empty string |
| Text.Capitalize | src/components/DogTabs.tsx:105 | same length, first character upper-cased, the rest untouched |
| Text.CapitalizeOnlyChangesCase | src/components/DogTabs.tsx:105 | capitalising changes only case: lower-casing cannot tell the result from the input, and capitalising twice is capitalising once |
| Text.NatToString | src/pages/api/create-checkout-session.ts:70 | a non-negative number prints as a non-empty run of decimal digits with no leading zero |
| Text.NatToStringValue | src/pages/api/create-checkout-session.ts:70 | reading the printed digits back in base 10 gives the number |
| Text.TrimStart | src/components/Cart.tsx:203 | `parseInt` skips leading white space: exactly the leading white space is dropped, and what remains does not start with white space |
| Text.DigitRun | src/components/Cart.tsx:203 | `parseInt` reads the longest prefix of digits of the radix |
| Text.ParseIntRoundTrip | src/pages/api/verify-payment.ts:35 | `parseInt(n.toString())` is `n` for every integer, negative ones included |
| CartView.TotalIsSumOfLines | src/components/Cart.tsx:19 | the `reduce` total is the sum of the amounts shown on the lines, and 0 for an empty cart |
| CartView.SumOfLinesAppend | src/pages/store/index.tsx:88 | appending a line adds its amount to the total |
| CartView.SumOfLinesUpdate | src/pages/store/index.tsx:97-99 | replacing one line changes the total by the difference of the two amounts |
| CartView.SumOfLinesRemove | src/pages/store/index.tsx:95 | removing one line takes its amount off the total |
| CartView.RemoveRequest | src/components/Cart.tsx:170 | the bin button asks for a quantity that removes the line |
| CartView.DecrementRequest | src/components/Cart.tsx:194 | the minus button asks for at least 1, one less when the quantity is above 1, never more than the quantity it had |
| CartView.IncrementRequest | src/components/Cart.tsx:207 | the plus button asks for more than the current quantity |
| CartView.TypedRequest | src/components/Cart.tsx:203 | `parseInt(text) \|\| 1`: never 0; NaN becomes 1; any other parsed value, negative included, passes through |
| CartView.TypedPrintedNumber | src/components/Cart.tsx:203 | typing the decimal form of a number asks for that number, except that "0" asks for 1 |
| CartView.GenerateDisabled | src/components/Cart.tsx:231 | the invoice button is disabled exactly when the cart is empty; `StorePage.GenerateButtonFollowsCart` ties this to the page |
| InvoiceModel.ParseStatus | src/models/Invoice.ts:64-67 | the enumeration accepts a name exactly when it spells one of `pending`, `paid`, `cancelled` |
| InvoiceModel.Build | src/models/Invoice.ts:32-74 | a draft is stored exactly when the required strings are non-empty, every item names its dog and a given status is in the enumeration. The stored document copies the given fields, is well-formed, defaults its status to `pending` and its creation time to now |
| InvoiceApi.ToStoredItems | src/pages/api/invoices/index.ts:22-26 | one stored item per cart line, in order, holding its dog id, quantity and price |
| InvoiceApi.HandleCreate | src/pages/api/invoices/index.ts:10-36 | a non-POST is 405 and stores nothing. Any change to the store is exactly one new invoice under a fresh id, built from the body (`pending`, total = the cart total, no pads or payment id, created now). 201 exactly when stored and emailed, sending back the stored invoice; a failed email is 500 with the invoice already stored; a valid body with a fresh id is always stored; a POST is never 405, so every other failed POST is 500 |
| InvoiceApi.StoredItemsTotal | src/pages/api/invoices/index.ts:22-27 | Σ price·quantity over the stored items is the sum of the cart's line amounts |
| InvoiceApi.CreatedTotalConsistent | src/pages/api/invoices/index.ts:27 | a created invoice's `totalAmount` equals the sum over its own stored items and the cart's displayed total |
| StorePage.BumpAll | src/pages/store/index.tsx:82-86 | the `map` keeps the length and increments exactly the lines of the added dog |
| StorePage.AddToCart | src/pages/store/index.tsx:78-90 | an existing dog has each of its lines incremented with every other line unchanged; a new dog is appended with quantity 1; either way the dog is then in the cart |
| StorePage.AddExistingBumpsOne | src/pages/store/index.tsx:80-86 | with unique ids, adding a dog already at index k only raises line k by one |
| StorePage.AddKeepsIdsUnique | src/pages/store/index.tsx:78-90 | adding never creates a second line for the same dog |
| StorePage.AddRaisesTotal | src/pages/store/index.tsx:78-90 | adding raises the cart total by exactly one unit price of the dog |
| StorePage.DropIndex | src/pages/store/index.tsx:95 | `filter((_, i) => i !== index)` removes exactly position `index`, and nothing when it is out of range |
| StorePage.SetQuantityAt | src/pages/store/index.tsx:97-99 | the `map` replaces the quantity at `index` only, and changes nothing when it is out of range |
| StorePage.UpdateQuantity | src/pages/store/index.tsx:92-101 | a quantity ≤ 0 removes the line at `index`, a positive one replaces its quantity and touches no other line, and an out-of-range index changes nothing |
| StorePage.UpdateKeepsIdsUnique | src/pages/store/index.tsx:92-101 | changing a quantity never creates a second line for the same dog |
| StorePage.RemoveButtonRemovesLine | src/components/Cart.tsx:170 | the bin button removes exactly its line and takes its amount off the total |
| StorePage.MinusButtonKeepsLine | src/components/Cart.tsx:194 | the minus button never removes its line; the quantity stays at least 1 |
| StorePage.PlusButtonAddsOne | src/components/Cart.tsx:207 | the plus button raises only its line by one and the total by one unit price |
| StorePage.TypedQuantityRemovesOnlyNegatives | src/components/Cart.tsx:203 | typing removes the line exactly when the text parses to a negative number |
| StorePage.SearchFilterSpec | src/pages/store/index.tsx:72-76 | the search keeps, in order and with every copy, exactly the dogs whose lower-cased name or breed contains the lower-cased query |
| StorePage.EmptyQueryKeepsAll | src/pages/store/index.tsx:72-76 | an empty search box shows every dog |
| StorePage.InvoiceRequestOf | src/pages/store/index.tsx:113-116 | the POST body carries the customer data and the whole cart |
| StorePage.BeginGenerate | src/pages/store/index.tsx:103-105 | submitting sets the in-flight flag and `sending` and changes nothing else, fetches in flight included |
| StorePage.FinishGenerate | src/pages/store/index.tsx:119-134 | success records the invoice and its id and moves to `sent`; failure returns to `idle` with the old id; the flag is cleared, and the cart and the fetches in flight are kept either way |
| StorePage.PollRequest | src/pages/store/index.tsx:28-34 | a tick sends a fetch only while `sent` with a non-empty id, adding one fetch in flight; otherwise nothing changes |
| StorePage.PollAnswer | src/pages/store/index.tsx:35-47 | the answer to a fetch in flight: `paid` sets `paid` and empties the cart whatever the page shows by then; any other answer, a failed fetch included, only retires the fetch |
| StorePage.AddKeepsQuantitiesPositive | src/pages/store/index.tsx:78-90 | adding keeps every line's quantity at least 1 |
| StorePage.UpdateKeepsQuantitiesPositive | src/pages/store/index.tsx:92-101 | changing a quantity keeps every line's quantity at least 1, since a quantity ≤ 0 removes the line |
| StorePage.PollStepConsistent | src/pages/store/index.tsx:28-56 | a poll tick or answer keeps the status or moves `sent → paid`, and keeps the page consistent |
| StorePage.StepFollowsEdges | src/pages/store/index.tsx:19-135 | every event keeps the status or follows one of `idle→sending`, `sending→sent`, `sending→idle`, `sent→paid`. It keeps the page consistent: the in-flight flag matches `sending`, `sent` and `paid` know their invoice, fetches are in flight only once `sent`, and the cart has unique ids and quantities of at least 1. It never leaves `paid`, and submitting or answering the invoice request never touches the cart |
| StorePage.RunStaysConsistent | src/pages/store/index.tsx:19-135 | every state reached by any event sequence from a consistent page is consistent, and `paid` is absorbing |
| StorePage.ReachableConsistent | src/pages/store/index.tsx:12-135 | every state reached from the first render by any sequence of events is consistent |
| StorePage.LatePaidAnswerEmptiesCart | src/pages/store/index.tsx:32-55 | a `paid` answer already in flight when the page turned `paid` still empties a cart refilled in the meantime: the cleanup stops ticks, not fetches |
| StorePage.ButtonsOnConsistentPage | src/components/Cart.tsx:194-207 | on a reachable page the plus button adds exactly one to its line and one unit price to the total, and the minus button never asks for more than the line has |
| StorePage.GenerateButtonFollowsCart | src/components/Cart.tsx:231 | adding a dog enables the invoice button, a `paid` poll answer disables it, and a disabled button means a total of 0 |
| StorePage.InvoiceMatchesDisplayedTotal | src/pages/store/index.tsx:113-116 | the invoice the server creates from the page's request carries the total the cart displayed |
| Checkout.ItemLine | src/pages/api/create-checkout-session.ts:36-46 | a dog's line is in USD, carries its catalogue name, the stored price ×100 and the stored quantity |
| Checkout.PadLine | src/pages/api/create-checkout-session.ts:48-58 | the pad line costs 10000 cents each, in the requested quantity |
| Checkout.ItemLines | src/pages/api/create-checkout-session.ts:29-46 | lines exist exactly when every ordered dog is in the catalogue, and then one per item, in order |
| Checkout.BuildLineItems | src/pages/api/create-checkout-session.ts:35-60 | the item lines followed by a pad line exactly when the pad count is positive |
| Checkout.ChargeCentsAppend | src/pages/api/create-checkout-session.ts:35-60 | the charge of concatenated lines is the sum of their charges |
| Checkout.ItemLinesCharge | src/pages/api/create-checkout-session.ts:43 | the item lines charge 100 cents per stored dollar of Σ price·quantity |
| Checkout.PadCharge | src/pages/api/create-checkout-session.ts:47-58 | pads cost 10000 cents each when positive, nothing otherwise |
| Checkout.CheckoutCharge | src/pages/api/create-checkout-session.ts:35-60 | the session charges 100·Σ price·quantity plus the pads, which is 100·`totalAmount` plus the pads for a consistent invoice |
| Checkout.HandleCheckout | src/pages/api/create-checkout-session.ts:21-78 | a non-POST is 405 and an unknown invoice is 404. 200 comes only with a session request in `payment` mode whose lines are the built lines and whose metadata holds the invoice id and the printed pad count. A known invoice with a catalogued order, a pad count and a provider session is always 200; anything else is 500 |
| Payment.PadCountText | src/pages/api/verify-payment.ts:35 | `brilliantPadsCount \|\| '0'`: a missing or empty count reads as "0", any other passes through |
| Payment.VerifyWithoutCount | src/pages/api/verify-payment.ts:35-36 | a paid session without a pad count, or with an empty one, records 0 pads at 0 dollars |
| Payment.MarkPaid | src/pages/api/verify-payment.ts:30-38 | the update sets `paid`, the payment id and the pads with price `count·100`, and leaves every other field alone |
| Payment.HandleVerify | src/pages/api/verify-payment.ts:14-51 | a non-POST is 405; a failed session lookup is 500; an unpaid session is 400; a pad count that parses to NaN is 500, before the invoice is looked up; an unknown invoice is 404; every non-200 leaves the store alone. 200 holds exactly for a POST of a paid session with a parseable count and a known invoice, and then only that invoice is replaced by its paid update |
| Payment.MarkPaidIdempotent | src/pages/api/verify-payment.ts:30-38 | marking paid twice is marking paid once, whatever status the invoice had |
| Payment.VerifyIdempotent | src/pages/api/verify-payment.ts:30-48 | confirming the same session a second time leaves the store as the first confirmation left it |
| Payment.VerifyTouchesOneInvoice | src/pages/api/verify-payment.ts:30-38 | every invoice other than the session's is left as it was |
| Payment.CheckoutThenVerify | src/pages/api/verify-payment.ts:30-48 | a checkout with `p` pads followed by its paid session gives 200 and marks the invoice paid with `p` pads at `p·100` dollars. For `p ≥ 0`, 100× that price is the pad charge and the session charged 100·(`totalAmount` + pad price) cents. For `p < 0` no pads were charged, yet the negative count and price are recorded |
| Tabs.BreedsOf | src/components/DogTabs.tsx:17 | one breed per dog, in catalogue order |
| Tabs.BreedTabs | src/components/DogTabs.tsx:17 | the first tab is `all`, every dog's breed has a tab, every other tab is some dog's breed, and no breed appears twice |
| Tabs.BreedTabsInOrder | src/components/DogTabs.tsx:17 | the breed tabs after `all` are in order of first appearance in the catalogue, and any list of the catalogue's breeds in that order is exactly those tabs |
| Tabs.ShownDogs | src/components/DogTabs.tsx:20-22 | the `all` tab shows every dog; a breed tab shows exactly the dogs of that breed |
| Tabs.InitialTabShowsAll | src/components/DogTabs.tsx:11-21 | the initial tab `all` is among the tabs and shows the whole catalogue |
| Tabs.ShownDogsInOrder | src/components/DogTabs.tsx:20-22 | a tab keeps catalogue order and every copy of the dogs it shows |
| Tabs.EveryTabShowsADog | src/components/DogTabs.tsx:17-22 | no tab of a non-empty catalogue is empty |
| Tabs.TabLabel | src/components/DogTabs.tsx:105 | the label is the breed with its first character upper-cased |
| Tabs.TabLabelOnlyChangesCase | src/components/DogTabs.tsx:105 | a label differs from its breed only in case, so breeds that differ other than in case get different labels, and a label labels as itself |

## Left out

- `GET` and `PATCH /api/invoices/[id]` (`src/pages/api/invoices/[id].ts`): they are outside the modelled core.
  - The `PATCH` writes the request's `status` without looking at the prior one. It then pushes `paymentConfirmed` into the Socket.IO room `invoice-${id}`.
  - It is how the invoice page marks an invoice paid. The poll's fetched status is an input of `StorePage.PollAnswer`, so every status this route may write is covered.
- Socket.IO rooms and the live status push (`src/lib/socket.ts`, `src/hooks/useSocket.ts`): the store page never joins a room and learns of payment only by polling, which is modelled.
- The invoice detail and payment-confirmation pages, seeding, the dog list endpoint and the development tools: outside the checkout core.
- Email composition and delivery (`src/lib/email.ts`): only its success or failure is an input of `InvoiceApi.HandleCreate`.
- MongoDB, Stripe and `fetch` as services: the store is a map. The provider's session id, its paid report and the network answers are inputs.
- Timers: the 2-second poll interval, the 2-second redirect to the confirmation page, and the alert on failure. A tick is a `PollTick` event and an answer a `PollAnswered` event. Any number of fetches may be in flight and answered in any order; timing is not modelled.
- Rendering: JSX, the loading spinner, scroll arrows of the tab bar and the controlled form fields.
- The success and cancel URLs of the checkout session: they come from an environment variable and do not affect any stored state.
- Casting an id string to a MongoDB ObjectId: an invalid one throws and answers 500. The model treats ids as opaque strings, so a malformed id behaves like an unknown one (404 or, on create, any id is accepted).
- Floating point: prices, quantities and counts are integers. A fractional or very large number, and `toString`'s exponent form for numbers above 10^21, are not modelled.
- A pad count sent to the checkout endpoint as a string or another JSON type: `Checkout.HandleCheckout` takes it as an optional integer. `undefined` is `None` and answers 500, because its `toString` throws.
- The payment provider's own validation of line items (such as refusing a zero or negative quantity or amount): the provider's answer is an input.
- Case mapping beyond ASCII in `toLowerCase` and `toUpperCase`: other characters are left unchanged.
- A session whose metadata lacks an invoice id: every session opened by the checkout endpoint carries one, so `Checkout.SessionMetadata.invoiceId` is always present.
- A request body with missing item fields (an item without `_id`, `price` or `quantity`): the schema would reject it and answer 500. The model's cart lines always carry all three, and `InvoiceModel.DraftValid` checks only the dog id.
- The dog description's `|| ''` fallback: the catalogue always has a description string.
- Text.ParseInt: stated through `Text.ParseIntRoundTrip` and the lemmas on its parts rather than a contract of its own. `parseInt`'s answer for text that is not an integer's printout is given only by its definition.

=== FILE: cart_view.dfy ===
/** The arithmetic and the requests behind the cart sidebar: the running
    total, the amount shown on each line, the quantity each control asks the
    store page for, and when the invoice button is disabled. */
module CartView {
  import opened Common
  import opened Catalog
  import opened Text

  /** The amount shown on one line: price times quantity. */
  function LineAmount(item: CartItem): int {
    item.dog.price * item.quantity
  }

  /** `items.reduce((sum, item) => sum + item.price * item.quantity, acc)`:
      a left fold, the order in which the page adds the lines up. */
  function TotalFrom(acc: int, items: seq<CartItem>): int
    decreases |items|
  {
    if items == [] then acc
    else TotalFrom(acc + LineAmount(items[0]), items[1..])
  }

  /** The total displayed under the cart. */
  function Total(items: seq<CartItem>): int {
    TotalFrom(0, items)
  }

  /** The sum of the amounts shown on the lines, first line first. */
  function SumOfLines(items: seq<CartItem>): int {
    if items == [] then 0 else LineAmount(items[0]) + SumOfLines(items[1..])
  }

  /** The fold started at `acc` is `acc` plus the sum of the lines. */
  lemma {:induction false} TotalFromShift(acc: int, items: seq<CartItem>)
    ensures TotalFrom(acc, items) == acc + SumOfLines(items)
    decreases |items|
  {
    if items != [] {
      TotalFromShift(acc + LineAmount(items[0]), items[1..]);
    }
  }

  /** The displayed total is the sum of the displayed line amounts, and 0 for
      an empty cart. */
  lemma TotalIsSumOfLines(items: seq<CartItem>)
    ensures Total(items) == SumOfLines(items)
    ensures items == [] ==> Total(items) == 0
  {
    TotalFromShift(0, items);
  }

  /** Adding a line at the end adds its amount to the sum. */
  lemma {:induction false} SumOfLinesAppend(items: seq<CartItem>, x: CartItem)
    ensures SumOfLines(items + [x]) == SumOfLines(items) + LineAmount(x)
  {
    if items != [] {
      assert (items + [x])[1..] == items[1..] + [x];
      SumOfLinesAppend(items[1..], x);
    }
  }

  /** Replacing one line changes the sum by the difference of the amounts. */
  lemma {:induction false} SumOfLinesUpdate(items: seq<CartItem>, k: int, x: CartItem)
    requires 0 <= k < |items|
    ensures SumOfLines(items[k := x]) == SumOfLines(items) - LineAmount(items[k]) + LineAmount(x)
  {
    if k > 0 {
      assert items[k := x][1..] == items[1..][k - 1 := x];
      SumOfLinesUpdate(items[1..], k - 1, x);
    }
  }

  /** Removing one line takes its amount off the sum. */
  lemma {:induction false} SumOfLinesRemove(items: seq<CartItem>, k: int)
    requires 0 <= k < |items|
    ensures SumOfLines(items[..k] + items[k + 1..]) == SumOfLines(items) - LineAmount(items[k])
  {
    if k > 0 {
      assert (items[..k] + items[k + 1..])[1..] == items[1..][..k - 1] + items[1..][k..];
      SumOfLinesRemove(items[1..], k - 1);
    } else {
      assert items[..k] + items[k + 1..] == items[1..];
    }
  }

  // ---------------------------------------------------------------------
  // The quantity each control of a line asks for

  /** The bin button asks for quantity 0. */
  function RemoveRequest(item: CartItem): (q: int)
    ensures q <= 0
  {
    0
  }

  /** The minus button asks for `Math.max(1, quantity - 1)`. */
  function DecrementRequest(item: CartItem): (q: int)
    ensures q >= 1
    ensures q <= item.quantity || item.quantity < 1
    ensures item.quantity > 1 ==> q == item.quantity - 1
  {
    if item.quantity - 1 > 1 then item.quantity - 1 else 1
  }

  /** The plus button asks for one more. */
  function IncrementRequest(item: CartItem): (q: int)
    ensures q > item.quantity
  {
    item.quantity + 1
  }

  /** The number field asks for `parseInt(text) || 1`: NaN and 0 are falsy
      and become 1, anything else, negative included, passes through. */
  function TypedRequest(text: string): (q: int)
    ensures q != 0
    ensures ParseInt(text).None? ==> q == 1
    ensures ParseInt(text).Some? && ParseInt(text).value != 0 ==> q == ParseInt(text).value
  {
    match ParseInt(text)
    case None => 1
    case Some(n) => if n == 0 then 1 else n
  }

  /** Typing a quantity's decimal form asks for that quantity; typing "0"
      asks for 1. */
  lemma TypedPrintedNumber(n: int)
    ensures TypedRequest(IntToString(n)) == if n == 0 then 1 else n
  {
    ParseIntRoundTrip(n);
  }

  /** The "Generate Invoice" button is disabled exactly for an empty cart. */
  function GenerateDisabled(items: seq<CartItem>): (disabled: bool)
    ensures disabled <==> items == []
  {
    |items| == 0
  }
}

=== FILE: catalog.dfy ===
/** The shared records of the storefront: a dog for sale, a cart line (a dog
    with a quantity) and the customer details typed into the invoice form. */
module Catalog {

  /** A dog of the catalogue; `id` is its store key. Prices are whole dollars. */
  datatype Dog = Dog(
    id: string,
    name: string,
    breed: string,
    price: int,
    description: string,
    image: string)

  /** A cart line: every field of the dog plus how many of it are wanted. */
  datatype CartItem = CartItem(dog: Dog, quantity: int)

  type Cart = seq<CartItem>

  datatype CustomerData = CustomerData(name: string, email: string)

  /** The key a cart line is identified by. */
  function ItemId(item: CartItem): string {
    item.dog.id
  }

  /** No two lines of the cart are for the same dog. */
  predicate UniqueIds(cart: Cart) {
    forall i, j :: 0 <= i < j < |cart| ==> ItemId(cart[i]) != ItemId(cart[j])
  }
}

=== FILE: checkout.dfy ===
/** The checkout-session endpoint: the line items sent to the payment provider
    for a stored invoice, in cents, with an optional pad line at $100 each,
    and the metadata that lets the payment be matched back to the invoice.
    The catalogue lookup that fills in dog names and the provider's answer are
    inputs. */
module Checkout {
  import opened Common
  import opened Catalog
  import opened Text
  import opened InvoiceModel
  import InvoiceApi

  /** The price of one pad, in cents. */
  const PadUnitCents := 10000

  /** One line of the payment page; `unitAmount` is in cents. */
  datatype LineItem = LineItem(name: string, description: string, currency: string, unitAmount: int, quantity: int)

  /** The metadata stored on the payment session; the pad count is text. */
  datatype SessionMetadata = SessionMetadata(invoiceId: string, brilliantPadsCount: Option<string>)

  /** What is sent to the payment provider to open a session. */
  datatype SessionRequest = SessionRequest(lineItems: seq<LineItem>, mode: string, metadata: SessionMetadata)

  /** The HTTP status, the session request made (on 200 only) and the
      session id sent back. */
  datatype CheckoutResult = CheckoutResult(code: int, request: Option<SessionRequest>, sessionId: Option<string>)

  /** The line of one ordered dog: name and description from the catalogue,
      the stored dollar price turned into cents, the stored quantity. */
  function ItemLine(item: InvoiceItem, dog: Dog): (line: LineItem)
    ensures line.unitAmount == item.price * 100 && line.quantity == item.quantity
    ensures line.name == dog.name && line.currency == "usd"
  {
    LineItem(dog.name, dog.breed + " - " + dog.description, "usd", item.price * 100, item.quantity)
  }

  /** The pad line. */
  function PadLine(count: int): (line: LineItem)
    ensures line.unitAmount == PadUnitCents && line.quantity == count
  {
    LineItem("Brilliant Pad", "Premium quality pet pad", "usd", PadUnitCents, count)
  }

  /** The lines of the stored items, in order. A dog missing from the
      catalogue populates as null and reading its name throws: `None`. */
  function ItemLines(items: seq<InvoiceItem>, dogs: map<string, Dog>): (r: Option<seq<LineItem>>)
    ensures r.Some? <==> forall i :: 0 <= i < |items| ==> items[i].dogId in dogs
    ensures r.Some? ==>
              && |r.value| == |items|
              && forall i :: 0 <= i < |items| ==> r.value[i] == ItemLine(items[i], dogs[items[i].dogId])
  {
    if items == [] then Some([])
    else if items[0].dogId !in dogs then None
    else
      match ItemLines(items[1..], dogs)
      case None => None
      case Some(rest) => Some([ItemLine(items[0], dogs[items[0].dogId])] + rest)
  }

  /** The item lines followed by a pad line when the pad count is positive. */
  function BuildLineItems(items: seq<InvoiceItem>, dogs: map<string, Dog>, pads: int): (r: Option<seq<LineItem>>)
    ensures r.Some? <==> ItemLines(items, dogs).Some?
    ensures r.Some? && pads > 0 ==> r.value == ItemLines(items, dogs).value + [PadLine(pads)]
    ensures r.Some? && pads <= 0 ==> r.value == ItemLines(items, dogs).value
  {
    match ItemLines(items, dogs)
    case None => None
    case Some(lines) => Some(lines + (if pads > 0 then [PadLine(pads)] else []))
  }

  /** What the payment page charges: Σ unit amount × quantity, in cents. */
  function ChargeCents(lines: seq<LineItem>): int {
    if lines == [] then 0 else lines[0].unitAmount * lines[0].quantity + ChargeCents(lines[1..])
  }

  lemma {:induction false} ChargeCentsAppend(a: seq<LineItem>, b: seq<LineItem>)
    ensures ChargeCents(a + b) == ChargeCents(a) + ChargeCents(b)
  {
    if a != [] {
      assert (a + b)[1..] == a[1..] + b;
      ChargeCentsAppend(a[1..], b);
    } else {
      assert a + b == b;
    }
  }

  /** The item lines charge 100 cents for every stored dollar. */
  lemma {:induction false} ItemLinesCharge(items: seq<InvoiceItem>, dogs: map<string, Dog>)
    requires ItemLines(items, dogs).Some?
    ensures ChargeCents(ItemLines(items, dogs).value) == 100 * ItemsTotal(items)
  {
    if items != [] {
      ItemLinesCharge(items[1..], dogs);
      assert ItemLines(items, dogs).value[1..] == ItemLines(items[1..], dogs).value;
    }
  }

  /** The pad part of the charge, in cents. */
  function PadCharge(pads: int): (cents: int)
    ensures pads > 0 ==> cents == PadUnitCents * pads
    ensures pads <= 0 ==> cents == 0
  {
    if pads > 0 then PadUnitCents * pads else 0
  }

  /** The whole charge is 100·Σ price·quantity plus 10000 per pad when there
      are pads; for an invoice whose total is its items' sum, as every
      created invoice's is, the item part is 100·totalAmount. */
  lemma CheckoutCharge(inv: Invoice, dogs: map<string, Dog>, pads: int)
    requires BuildLineItems(inv.items, dogs, pads).Some?
    ensures ChargeCents(BuildLineItems(inv.items, dogs, pads).value) == 100 * ItemsTotal(inv.items) + PadCharge(pads)
    ensures inv.totalAmount == ItemsTotal(inv.items) ==>
              ChargeCents(BuildLineItems(inv.items, dogs, pads).value) == 100 * inv.totalAmount + PadCharge(pads)
  {
    var lines := ItemLines(inv.items, dogs).value;
    ItemLinesCharge(inv.items, dogs);
    ChargeCentsAppend(lines, if pads > 0 then [PadLine(pads)] else []);
    if pads > 0 {
      assert ChargeCents([PadLine(pads)]) == PadUnitCents * pads;
    }
  }

  /** The handler. A request that is not a POST is refused; an unknown invoice
      is 404; a dog missing from the catalogue, a missing pad count (whose
      `toString` throws) and a provider failure (`sessionId` absent) are 500. */
  function HandleCheckout(requestMethod: string, invoiceId: string, padsCount: Option<int>,
                          store: InvoiceApi.Store, dogs: map<string, Dog>,
                          sessionId: Option<string>): (r: CheckoutResult)
    ensures requestMethod != "POST" ==> r.code == 405 && r.request.None?
    ensures requestMethod == "POST" && invoiceId !in store ==> r.code == 404 && r.request.None?
    ensures r.code == 200 || r.code == 404 || r.code == 405 || r.code == 500
    ensures r.code == 200 <==> r.request.Some?
    ensures r.code == 200 ==>
              && requestMethod == "POST" && invoiceId in store && padsCount.Some?
              && r.sessionId == sessionId && sessionId.Some?
              && r.request.value.mode == "payment"
              && Some(r.request.value.lineItems) == BuildLineItems(store[invoiceId].items, dogs, padsCount.value)
              && r.request.value.metadata == SessionMetadata(invoiceId, Some(IntToString(padsCount.value)))
    ensures (&& requestMethod == "POST" && invoiceId in store && padsCount.Some? && sessionId.Some?
             && ItemLines(store[invoiceId].items, dogs).Some?) ==> r.code == 200
    ensures requestMethod == "POST" && invoiceId in store && r.code != 200 ==> r.code == 500
  {
    if requestMethod != "POST" then CheckoutResult(405, None, None)
    else if invoiceId !in store then CheckoutResult(404, None, None)
    else
      match BuildLineItems(store[invoiceId].items, dogs, padsCount.GetOr(0))
      case None => CheckoutResult(500, None, None)
      case Some(lines) =>
        if padsCount.None? || sessionId.None? then CheckoutResult(500, None, None)
        else
          var metadata := SessionMetadata(invoiceId, Some(IntToString(padsCount.value)));
          CheckoutResult(200, Some(SessionRequest(lines, "payment", metadata)), sessionId)
  }
}

=== FILE: common.dfy ===
/** Small shared vocabulary: an optional value and the two sequence operations
    the storefront uses over and over, filtering (`Array.prototype.filter`) and
    first-appearance de-duplication (spreading a `Set`). */
module Common {

  /** A value that may be absent: `undefined`/`null` in the storefront. */
  datatype Option<+T> = None | Some(value: T) {
    function GetOr(default: T): T {
      match this
      case Some(v) => v
      case None => default
    }
  }

  /** `a` is an order-preserving subsequence of `b`. */
  predicate IsSubseq<T(==)>(a: seq<T>, b: seq<T>)
    decreases |b|
  {
    if a == [] then true
    else if b == [] then false
    else if a[0] == b[0] then IsSubseq(a[1..], b[1..])
    else IsSubseq(a, b[1..])
  }

  /** Every sequence is a subsequence of itself. */
  lemma {:induction false} SubseqRefl<T>(xs: seq<T>)
    ensures IsSubseq(xs, xs)
  {
    if xs != [] {
      SubseqRefl(xs[1..]);
    }
  }

  /** The elements of `xs` that satisfy `p`, in their original order. */
  function Filter<T>(p: T -> bool, xs: seq<T>): (r: seq<T>)
    ensures |r| <= |xs|
    ensures forall i :: 0 <= i < |r| ==> p(r[i]) && r[i] in xs
    ensures forall i :: 0 <= i < |xs| && p(xs[i]) ==> xs[i] in r
  {
    if xs == [] then []
    else if p(xs[0]) then [xs[0]] + Filter(p, xs[1..])
    else Filter(p, xs[1..])
  }

  /** Filtering keeps order, drops nothing that passes and keeps every
      occurrence of what passes. */
  lemma {:induction false} FilterSubseq<T(!new)>(p: T -> bool, xs: seq<T>)
    ensures IsSubseq(Filter(p, xs), xs)
    ensures forall x :: multiset(Filter(p, xs))[x] == if p(x) then multiset(xs)[x] else 0
  {
    if xs != [] {
      FilterSubseq(p, xs[1..]);
      assert xs == [xs[0]] + xs[1..];
      var r := Filter(p, xs);
      if p(xs[0]) {
        SubseqCons(Filter(p, xs[1..]), xs[1..], xs[0]);
        assert r[1..] == Filter(p, xs[1..]);
      } else {
        SubseqSkip(Filter(p, xs[1..]), xs[1..], xs[0]);
      }
    }
  }

  /** Prepending the same element to both sides keeps a subsequence. */
  lemma {:induction false} SubseqCons<T>(a: seq<T>, b: seq<T>, x: T)
    requires IsSubseq(a, b)
    ensures IsSubseq([x] + a, [x] + b)
  {
    assert ([x] + b)[1..] == b;
    assert ([x] + a)[1..] == a;
  }

  /** Prepending an element that `a` does not start with keeps a subsequence. */
  lemma {:induction false} SubseqSkip<T>(a: seq<T>, b: seq<T>, x: T)
    requires IsSubseq(a, b)
    requires a == [] || a[0] != x
    ensures IsSubseq(a, [x] + b)
  {
    assert ([x] + b)[1..] == b;
  }

  /** When every element passes, filtering is the identity. */
  lemma {:induction false} FilterAll<T>(p: T -> bool, xs: seq<T>)
    requires forall i :: 0 <= i < |xs| ==> p(xs[i])
    ensures Filter(p, xs) == xs
  {
    if xs != [] {
      FilterAll(p, xs[1..]);
      assert xs == [xs[0]] + xs[1..];
    }
  }

  /** Every element of `xs` once, in order of first appearance: the iteration
      order of `[...new Set(xs)]`. */
  function Dedup<T(==)>(xs: seq<T>): (r: seq<T>)
    ensures forall i, j :: 0 <= i < j < |r| ==> r[i] != r[j]
    ensures forall i :: 0 <= i < |r| ==> r[i] in xs
    ensures forall i :: 0 <= i < |xs| ==> xs[i] in r
    ensures |r| <= |xs|
  {
    if xs == [] then []
    else
      var d := Dedup(xs[..|xs| - 1]);
      assert xs == xs[..|xs| - 1] + [xs[|xs| - 1]];
      if xs[|xs| - 1] in d then d else d + [xs[|xs| - 1]]
  }

  /** De-duplication keeps the original order of first appearances. */
  lemma {:induction false} DedupSubseq<T>(xs: seq<T>)
    ensures IsSubseq(Dedup(xs), xs)
    decreases |xs|
  {
    if xs != [] {
      var init := xs[..|xs| - 1];
      var last := xs[|xs| - 1];
      DedupSubseq(init);
      assert xs == init + [last];
      SubseqSnoc(Dedup(init), init, last);
    }
  }

  /** Appending to both sides, or only to the longer one, keeps a subsequence. */
  lemma {:induction false} SubseqSnoc<T>(a: seq<T>, b: seq<T>, x: T)
    requires IsSubseq(a, b)
    ensures IsSubseq(a, b + [x])
    ensures IsSubseq(a + [x], b + [x])
    decreases |b|
  {
    if a == [] {
      assert IsSubseq([x], [x]) by { assert [x][1..] == []; }
      assert a + [x] == [x];
      if b != [] {
        SubseqPrefix([x], b, x);
      }
    } else {
      assert b != [];
      assert (a + [x])[0] == a[0] && (a + [x])[1..] == a[1..] + [x];
      assert (b + [x])[0] == b[0] && (b + [x])[1..] == b[1..] + [x];
      if a[0] == b[0] {
        SubseqSnoc(a[1..], b[1..], x);
      } else {
        SubseqSnoc(a, b[1..], x);
      }
    }
  }

  /** `[x]` is a subsequence of any `b + [x]`. */
  lemma {:induction false} SubseqPrefix<T>(a: seq<T>, b: seq<T>, x: T)
    requires a == [x]
    ensures IsSubseq(a, b + [x])
    decreases |b|
  {
    if b == [] {
      assert b + [x] == [x];
      assert a[1..] == [];
    } else {
      assert (b + [x])[1..] == b[1..] + [x];
      if b[0] == x {
        assert a[1..] == [];
      } else {
        SubseqPrefix(a, b[1..], x);
      }
    }
  }

  /** The position of the first `x` in `xs`. */
  function FirstIndex<T(==)>(xs: seq<T>, x: T): (k: nat)
    requires x in xs
    ensures k < |xs| && xs[k] == x
    ensures forall i :: 0 <= i < k ==> xs[i] != x
  {
    if xs[0] == x then 0 else 1 + FirstIndex(xs[1..], x)
  }

  /** Growing a sequence at the end does not move a first occurrence. */
  lemma FirstIndexSnoc<T>(xs: seq<T>, y: T, x: T)
    requires x in xs
    ensures FirstIndex(xs + [y], x) == FirstIndex(xs, x)
  {
    var k := FirstIndex(xs, x);
    assert forall i :: 0 <= i < |xs| ==> (xs + [y])[i] == xs[i];
    assert (xs + [y])[k] == x;
  }

  /** `a` lists values of `xs` in strictly increasing order of first appearance. */
  predicate InFirstAppearanceOrder<T(==)>(xs: seq<T>, a: seq<T>) {
    && (forall i :: 0 <= i < |a| ==> a[i] in xs)
    && (forall i, j :: 0 <= i < j < |a| ==> FirstIndex(xs, a[i]) < FirstIndex(xs, a[j]))
  }

  /** `Dedup` lists the values in the order in which each first appears in
      `xs`: the first occurrences of its elements strictly increase. */
  lemma {:induction false} DedupFirstAppearance<T>(xs: seq<T>)
    ensures InFirstAppearanceOrder(xs, Dedup(xs))
    decreases |xs|
  {
    if xs != [] {
      var init := xs[..|xs| - 1];
      var last := xs[|xs| - 1];
      var d := Dedup(init);
      DedupFirstAppearance(init);
      assert xs == init + [last];
      forall x | x in init
        ensures FirstIndex(xs, x) == FirstIndex(init, x)
      {
        FirstIndexSnoc(init, last, x);
      }
      if last !in d {
        assert last !in init;
        assert FirstIndex(xs, last) == |init|;
        assert Dedup(xs) == d + [last];
      } else {
        assert Dedup(xs) == d;
      }
    }
  }

  /** The tail of a first-appearance-ordered sequence is ordered too, and
      comes strictly after its head. */
  lemma OrderedTail<T>(xs: seq<T>, a: seq<T>)
    requires a != [] && InFirstAppearanceOrder(xs, a)
    ensures InFirstAppearanceOrder(xs, a[1..])
    ensures forall x :: x in a[1..] ==> x in xs && FirstIndex(xs, a[0]) < FirstIndex(xs, x)
  {
    forall x | x in a[1..]
      ensures x in xs && FirstIndex(xs, a[0]) < FirstIndex(xs, x)
    {
      var k :| 0 <= k < |a[1..]| && a[1..][k] == x;
      assert a[k + 1] == x;
    }
  }

  /** Two ordered sequences holding the same values start alike. */
  lemma OrderedHeads<T>(xs: seq<T>, a: seq<T>, b: seq<T>)
    requires InFirstAppearanceOrder(xs, a) && InFirstAppearanceOrder(xs, b)
    requires forall x :: x in a <==> x in b
    requires a != []
    ensures b != [] && a[0] == b[0]
  {
    assert a[0] in b;
    assert b[0] in a;
    var i :| 0 <= i < |a| && a[i] == b[0];
    var j :| 0 <= j < |b| && b[j] == a[0];
    assert FirstIndex(xs, a[0]) <= FirstIndex(xs, a[i]);
    assert FirstIndex(xs, b[0]) <= FirstIndex(xs, b[j]);
    assert xs[FirstIndex(xs, a[0])] == a[0] && xs[FirstIndex(xs, b[0])] == b[0];
  }

  /** Two sequences holding the same values, both in first-appearance order
      of `xs`, are equal: that order is unique. */
  lemma {:induction false} FirstAppearanceUnique<T>(xs: seq<T>, a: seq<T>, b: seq<T>)
    requires InFirstAppearanceOrder(xs, a) && InFirstAppearanceOrder(xs, b)
    requires forall x :: x in a <==> x in b
    ensures a == b
    decreases |a|
  {
    if a == [] {
      assert forall i :: 0 <= i < |b| ==> b[i] !in a;
    } else {
      OrderedHeads(xs, a, b);
      OrderedTail(xs, a);
      OrderedTail(xs, b);
      assert a == [a[0]] + a[1..] && b == [b[0]] + b[1..];
      forall x
        ensures x in a[1..] <==> x in b[1..]
      {
        if x in a[1..] {
          assert x != a[0] && x in b;
        }
        if x in b[1..] {
          assert x != b[0] && x in a;
        }
      }
      FirstAppearanceUnique(xs, a[1..], b[1..]);
      assert a == [a[0]] + a[1..] && b == [b[0]] + b[1..];
    }
  }
}

=== FILE: invoice_api.dfy ===
/** The invoice-creation endpoint: a POST carrying the customer details and the
    cart is turned into a stored `pending` invoice, after which a notification
    email is sent. The document store is a map from id to invoice; the fresh id,
    the clock and the outcome of the email are inputs. */
module InvoiceApi {
  import opened Common
  import opened Catalog
  import opened InvoiceModel
  import CartView

  type Store = map<string, Invoice>

  /** The JSON body; either field may be missing from it. */
  datatype InvoiceRequest = InvoiceRequest(customerData: Option<CustomerData>, items: Option<seq<CartItem>>)

  /** The HTTP status, the invoice sent back (on 201 only) and the store after. */
  datatype CreateResult = CreateResult(code: int, invoice: Option<Invoice>, store: Store)

  /** The stored form of a cart line: `{dogId: _id, quantity, price}`. */
  function ToStoredItem(item: CartItem): InvoiceItem {
    InvoiceItem(item.dog.id, item.quantity, item.dog.price)
  }

  function ToStoredItems(items: seq<CartItem>): (r: seq<InvoiceItem>)
    ensures |r| == |items|
    ensures forall i :: 0 <= i < |items| ==> r[i] == ToStoredItem(items[i])
  {
    seq(|items|, i requires 0 <= i < |items| => ToStoredItem(items[i]))
  }

  /** The document handed to the store: no status, pads, payment id or
      creation time are supplied, so the schema's defaults apply. */
  function DraftOf(customer: CustomerData, items: seq<CartItem>): InvoiceDraft {
    InvoiceDraft(customer.name, customer.email, ToStoredItems(items), None,
                 CartView.Total(items), None, None, None)
  }

  /** What an invoice created from `items` for `customer` looks like. */
  predicate CreatedFrom(inv: Invoice, customer: CustomerData, items: seq<CartItem>, id: string, now: int) {
    && inv.id == id
    && inv.customerName == customer.name
    && inv.customerEmail == customer.email
    && |inv.items| == |items|
    && (forall i :: 0 <= i < |items| ==>
          inv.items[i].dogId == items[i].dog.id
          && inv.items[i].quantity == items[i].quantity
          && inv.items[i].price == items[i].dog.price)
    && inv.totalAmount == CartView.Total(items)
    && inv.status == Pending
    && inv.brilliantPads.None?
    && inv.paymentId.None?
    && inv.createdAt == now
  }

  /** The handler. Reading a field of a missing `customerData` or mapping a
      missing `items` throws, as does a draft the schema rejects and an id
      already taken; each of these answers 500 before anything is stored. A
      failed email also answers 500, but only after the invoice was stored. */
  function HandleCreate(requestMethod: string, body: InvoiceRequest, store: Store,
                        newId: string, now: int, emailSent: bool): (r: CreateResult)
    ensures requestMethod != "POST" ==> r.code == 405 && r.store == store
    ensures r.code == 201 || r.code == 405 || r.code == 500
    ensures requestMethod == "POST" ==> r.code != 405
    ensures r.code == 201 <==> r.invoice.Some?
    ensures r.store != store ==>
              && requestMethod == "POST"
              && body.customerData.Some? && body.items.Some?
              && newId !in store
              && newId in r.store
              && r.store == store[newId := r.store[newId]]
              && CreatedFrom(r.store[newId], body.customerData.value, body.items.value, newId, now)
              && WellFormed(r.store[newId])
    ensures r.code == 201 ==> r.store != store && emailSent && r.invoice == Some(r.store[newId])
    ensures r.store != store && !emailSent ==> r.code == 500
    ensures r.store != store && emailSent ==> r.code == 201 && r.invoice == Some(r.store[newId])
    ensures (&& requestMethod == "POST" && body.customerData.Some? && body.items.Some? && newId !in store
             && DraftValid(DraftOf(body.customerData.value, body.items.value)))
            ==> r.store != store
  {
    if requestMethod != "POST" then CreateResult(405, None, store)
    else if body.customerData.None? || body.items.None? then CreateResult(500, None, store)
    else
      var draft := DraftOf(body.customerData.value, body.items.value);
      match Build(draft, newId, now)
      case None => CreateResult(500, None, store)
      case Some(inv) =>
        if newId in store then CreateResult(500, None, store)
        else
          var store' := store[newId := inv];
          if !emailSent then CreateResult(500, None, store')
          else CreateResult(201, Some(inv), store')
  }

  /** The stored items add up to the cart's displayed total. */
  lemma {:induction false} StoredItemsTotal(items: seq<CartItem>)
    ensures ItemsTotal(ToStoredItems(items)) == CartView.SumOfLines(items)
  {
    if items != [] {
      StoredItemsTotal(items[1..]);
      assert ToStoredItems(items)[1..] == ToStoredItems(items[1..]);
    }
  }

  /** A created invoice's `totalAmount` is Σ price·quantity over its own
      stored items, and the total the cart displayed for the submitted items. */
  lemma CreatedTotalConsistent(inv: Invoice, customer: CustomerData, items: seq<CartItem>, id: string, now: int)
    requires CreatedFrom(inv, customer, items, id, now)
    ensures inv.totalAmount == ItemsTotal(inv.items)
    ensures inv.totalAmount == CartView.SumOfLines(items)
  {
    CartView.TotalIsSumOfLines(items);
    assert inv.items == ToStoredItems(items);
    StoredItemsTotal(items);
  }
}

=== FILE: invoice_model.dfy ===
/** The stored invoice document and the rules its schema applies when one is
    created: required fields, the status enumeration and the two defaults. */
module InvoiceModel {
  import opened Common

  datatype InvoiceStatus = Pending | Paid | Cancelled

  /** The spelling of a status in the stored document. */
  function StatusName(s: InvoiceStatus): string {
    match s
    case Pending => "pending"
    case Paid => "paid"
    case Cancelled => "cancelled"
  }

  /** The schema's enumeration check: a name is accepted exactly when it
      spells one of the three statuses. */
  function ParseStatus(name: string): (r: Option<InvoiceStatus>)
    ensures forall s :: r == Some(s) <==> name == StatusName(s)
  {
    if name == "pending" then Some(Pending)
    else if name == "paid" then Some(Paid)
    else if name == "cancelled" then Some(Cancelled)
    else None
  }

  /** One ordered dog: a snapshot of quantity and unit price (dollars). */
  datatype InvoiceItem = InvoiceItem(dogId: string, quantity: int, price: int)

  /** The optional pad add-on; both numbers are optional in the schema. */
  datatype BrilliantPads = BrilliantPads(quantity: Option<int>, price: Option<int>)

  /** A stored invoice. `createdAt` is a timestamp in milliseconds. */
  datatype Invoice = Invoice(
    id: string,
    customerName: string,
    customerEmail: string,
    items: seq<InvoiceItem>,
    brilliantPads: Option<BrilliantPads>,
    totalAmount: int,
    status: InvoiceStatus,
    paymentId: Option<string>,
    createdAt: int)

  /** The fields handed to the store when an invoice is created. A missing
      string and an empty one are both written `""`: the schema rejects both
      for a required string. */
  datatype InvoiceDraft = InvoiceDraft(
    customerName: string,
    customerEmail: string,
    items: seq<InvoiceItem>,
    brilliantPads: Option<BrilliantPads>,
    totalAmount: int,
    status: Option<string>,
    paymentId: Option<string>,
    createdAt: Option<int>)

  /** The schema's checks on a draft: the two customer strings are required,
      every item names its dog, and a given status is one of the three names. */
  predicate DraftValid(d: InvoiceDraft) {
    && d.customerName != ""
    && d.customerEmail != ""
    && (forall i :: 0 <= i < |d.items| ==> d.items[i].dogId != "")
    && (d.status.None? || ParseStatus(d.status.value).Some?)
  }

  /** What every stored invoice satisfies. */
  predicate WellFormed(inv: Invoice) {
    && inv.customerName != ""
    && inv.customerEmail != ""
    && (forall i :: 0 <= i < |inv.items| ==> inv.items[i].dogId != "")
  }

  /** Creating a document from a draft: validation, then the defaults
      (`status` is `pending`, `createdAt` is the creation time `now`). */
  function Build(d: InvoiceDraft, id: string, now: int): (r: Option<Invoice>)
    ensures r.Some? <==> DraftValid(d)
    ensures r.Some? ==> WellFormed(r.value)
    ensures r.Some? ==> (
              && r.value.id == id
              && r.value.customerName == d.customerName
              && r.value.customerEmail == d.customerEmail
              && r.value.items == d.items
              && r.value.brilliantPads == d.brilliantPads
              && r.value.totalAmount == d.totalAmount
              && r.value.paymentId == d.paymentId)
    ensures r.Some? ==> StatusName(r.value.status) == d.status.GetOr("pending")
    ensures r.Some? && d.createdAt.None? ==> r.value.createdAt == now
    ensures r.Some? && d.createdAt.Some? ==> r.value.createdAt == d.createdAt.value
  {
    if !DraftValid(d) then None
    else
      var status := if d.status.None? then Pending else ParseStatus(d.status.value).value;
      Some(Invoice(id, d.customerName, d.customerEmail, d.items, d.brilliantPads,
                   d.totalAmount, status, d.paymentId, d.createdAt.GetOr(now)))
  }

  /** Σ price·quantity over the stored items. */
  function ItemsTotal(items: seq<InvoiceItem>): int {
    if items == [] then 0 else items[0].price * items[0].quantity + ItemsTotal(items[1..])
  }
}

=== FILE: payment.dfy ===
/** The payment-confirmation endpoint: given the payment session the provider
    reports, a paid session marks its invoice paid and records the payment id
    and the pads bought. The session lookup is an input; the document store is
    the map of the invoice endpoint. */
module Payment {
  import opened Common
  import opened Text
  import opened InvoiceModel
  import InvoiceApi
  import Checkout
  import Catalog

  /** The parts of a provider session the endpoint reads. */
  datatype PaymentSession = PaymentSession(
    paymentStatus: string,
    paymentIntent: Option<string>,
    metadata: Checkout.SessionMetadata)

  /** The HTTP status and the store after. */
  datatype VerifyResult = VerifyResult(code: int, store: InvoiceApi.Store)

  /** `metadata.brilliantPadsCount || '0'`: a missing or empty count reads as "0". */
  function PadCountText(m: Checkout.SessionMetadata): (t: string)
    ensures t != ""
    ensures m.brilliantPadsCount.None? || m.brilliantPadsCount == Some("") ==> t == "0"
    ensures m.brilliantPadsCount.Some? && m.brilliantPadsCount != Some("") ==> t == m.brilliantPadsCount.value
  {
    match m.brilliantPadsCount
    case None => "0"
    case Some(text) => if text == "" then "0" else text
  }

  /** The update written to the invoice: status `paid`, the payment id, and
      the pad count with its price, `count * 100` dollars. Nothing else is
      written, and the prior status is not looked at. */
  function MarkPaid(inv: Invoice, paymentIntent: Option<string>, pads: int): (r: Invoice)
    ensures r.status == Paid
    ensures r.paymentId == paymentIntent
    ensures r.brilliantPads == Some(BrilliantPads(Some(pads), Some(pads * 100)))
    ensures && r.id == inv.id
            && r.customerName == inv.customerName
            && r.customerEmail == inv.customerEmail
            && r.items == inv.items
            && r.totalAmount == inv.totalAmount
            && r.createdAt == inv.createdAt
  {
    inv.(status := Paid, paymentId := paymentIntent,
         brilliantPads := Some(BrilliantPads(Some(pads), Some(pads * 100))))
  }

  /** The handler. A request that is not a POST is refused; a failed session
      lookup is 500; an unpaid session is 400 and writes nothing; a pad count
      that parses to NaN is rejected by the store's number cast (500); an
      unknown invoice is 404. */
  function HandleVerify(requestMethod: string, session: Option<PaymentSession>,
                        store: InvoiceApi.Store): (r: VerifyResult)
    ensures requestMethod != "POST" ==> r.code == 405 && r.store == store
    ensures requestMethod == "POST" && session.None? ==> r.code == 500
    ensures (&& requestMethod == "POST" && session.Some? && session.value.paymentStatus == "paid"
             && ParseInt(PadCountText(session.value.metadata)).None?) ==> r.code == 500
    ensures r.code != 200 ==> r.store == store
    ensures r.code == 200 || r.code == 400 || r.code == 404 || r.code == 405 || r.code == 500
    ensures requestMethod == "POST" && session.Some? && session.value.paymentStatus != "paid" ==>
              r.code == 400
    ensures (&& requestMethod == "POST" && session.Some? && session.value.paymentStatus == "paid"
             && ParseInt(PadCountText(session.value.metadata)).Some?
             && session.value.metadata.invoiceId !in store) ==> r.code == 404
    ensures r.code == 200 <==>
              && requestMethod == "POST" && session.Some? && session.value.paymentStatus == "paid"
              && ParseInt(PadCountText(session.value.metadata)).Some?
              && session.value.metadata.invoiceId in store
    ensures r.code == 200 ==>
              var id := session.value.metadata.invoiceId;
              r.store == store[id := MarkPaid(store[id], session.value.paymentIntent,
                                              ParseInt(PadCountText(session.value.metadata)).value)]
  {
    if requestMethod != "POST" then VerifyResult(405, store)
    else if session.None? then VerifyResult(500, store)
    else if session.value.paymentStatus != "paid" then VerifyResult(400, store)
    else
      match ParseInt(PadCountText(session.value.metadata))
      case None => VerifyResult(500, store)
      case Some(pads) =>
        var id := session.value.metadata.invoiceId;
        if id !in store then VerifyResult(404, store)
        else VerifyResult(200, store[id := MarkPaid(store[id], session.value.paymentIntent, pads)])
  }

  /** Marking paid twice is marking paid once, and the outcome does not depend
      on the status the invoice had: pending, paid or cancelled all end paid. */
  lemma MarkPaidIdempotent(inv: Invoice, paymentIntent: Option<string>, pads: int, status: InvoiceStatus)
    ensures MarkPaid(MarkPaid(inv, paymentIntent, pads), paymentIntent, pads) == MarkPaid(inv, paymentIntent, pads)
    ensures MarkPaid(inv.(status := status), paymentIntent, pads) == MarkPaid(inv, paymentIntent, pads)
  {
  }

  /** Confirming the same session again leaves the store as the first
      confirmation left it. */
  lemma VerifyIdempotent(requestMethod: string, session: Option<PaymentSession>, store: InvoiceApi.Store)
    ensures var once := HandleVerify(requestMethod, session, store);
            HandleVerify(requestMethod, session, once.store).store == once.store
  {
    var once := HandleVerify(requestMethod, session, store);
    if once.code == 200 {
      var id := session.value.metadata.invoiceId;
      var pads := ParseInt(PadCountText(session.value.metadata)).value;
      var paid := MarkPaid(store[id], session.value.paymentIntent, pads);
      assert once.store == store[id := paid];
      MarkPaidIdempotent(store[id], session.value.paymentIntent, pads, store[id].status);
      assert MarkPaid(once.store[id], session.value.paymentIntent, pads) == paid;
      var twice := HandleVerify(requestMethod, session, once.store);
      assert twice.code == 200;
      assert twice.store == once.store[id := paid];
    } else {
      assert once.store == store;
    }
  }

  /** A confirmation touches one invoice only: every other stored invoice is
      left exactly as it was. */
  lemma VerifyTouchesOneInvoice(requestMethod: string, session: Option<PaymentSession>,
                                store: InvoiceApi.Store, other: string)
    requires other in store
    requires session.None? || other != session.value.metadata.invoiceId
    ensures other in HandleVerify(requestMethod, session, store).store
    ensures HandleVerify(requestMethod, session, store).store[other] == store[other]
  {
  }

  /** A paid session without a pad count, or with an empty one, records
      zero pads at zero dollars. */
  lemma VerifyWithoutCount(session: PaymentSession, store: InvoiceApi.Store)
    requires session.paymentStatus == "paid"
    requires session.metadata.invoiceId in store
    requires session.metadata.brilliantPadsCount.None? || session.metadata.brilliantPadsCount == Some("")
    ensures HandleVerify("POST", Some(session), store).code == 200
    ensures HandleVerify("POST", Some(session), store).store[session.metadata.invoiceId].brilliantPads
            == Some(BrilliantPads(Some(0), Some(0)))
  {
    assert PadCountText(session.metadata) == "0";
    ParseIntRoundTrip(0);
    assert IntToString(0) == "0";
  }

  /** The whole payment round trip: a session opened at checkout with pad
      count `pads` and then reported paid marks that invoice paid with `pads`
      pads at `pads * 100` dollars. For `pads >= 0` the dollars recorded for
      the pads, times 100, are the cents charged for them, so the charge is
      100·(totalAmount + pad price). Neither endpoint refuses a negative
      count: checkout then adds no pad line and charges nothing for pads, yet
      the negative count is still recorded with a negative price. */
  lemma CheckoutThenVerify(invoiceId: string, pads: int, store: InvoiceApi.Store,
                           dogs: map<string, Catalog.Dog>, sessionId: string, paymentIntent: Option<string>)
    requires Checkout.HandleCheckout("POST", invoiceId, Some(pads), store, dogs, Some(sessionId)).code == 200
    requires store[invoiceId].totalAmount == ItemsTotal(store[invoiceId].items)
    ensures var req := Checkout.HandleCheckout("POST", invoiceId, Some(pads), store, dogs, Some(sessionId)).request.value;
            var after := HandleVerify("POST", Some(PaymentSession("paid", paymentIntent, req.metadata)), store);
            && after.code == 200
            && after.store[invoiceId].status == Paid
            && after.store[invoiceId].paymentId == paymentIntent
            && after.store[invoiceId].brilliantPads == Some(BrilliantPads(Some(pads), Some(pads * 100)))
            && (pads >= 0 ==>
                  && 100 * after.store[invoiceId].brilliantPads.value.price.value == Checkout.PadCharge(pads)
                  && Checkout.ChargeCents(req.lineItems)
                     == 100 * (after.store[invoiceId].totalAmount + after.store[invoiceId].brilliantPads.value.price.value))
            && (pads < 0 ==>
                  && Checkout.PadCharge(pads) == 0
                  && 100 * after.store[invoiceId].brilliantPads.value.price.value < Checkout.PadCharge(pads)
                  && Checkout.ChargeCents(req.lineItems) == 100 * after.store[invoiceId].totalAmount)
  {
    var req := Checkout.HandleCheckout("POST", invoiceId, Some(pads), store, dogs, Some(sessionId)).request.value;
    ParseIntRoundTrip(pads);
    var text := IntToString(pads);
    assert PadCountText(req.metadata) == text;
    Checkout.CheckoutCharge(store[invoiceId], dogs, pads);
  }
}

=== FILE: store_page.dfy ===
/** The store page's state handlers: adding a dog to the cart, changing a
    line's quantity, the search filter, and the checkout status that goes
    `idle → sending → sent → paid` as the invoice is requested, answered and
    found paid by polling. Network answers are inputs of the step functions. */
module StorePage {
  import opened Common
  import opened Catalog
  import opened Text
  import CartView
  import InvoiceModel
  import InvoiceApi

  // ---------------------------------------------------------------------
  // Adding to the cart

  /** `prev.find(item => item._id === id)` finds something. */
  predicate InCart(cart: Cart, id: string) {
    exists i :: 0 <= i < |cart| && ItemId(cart[i]) == id
  }

  /** One step of the `map`: a line for `id` gets one more, others are kept. */
  function Bump(item: CartItem, id: string): CartItem {
    if ItemId(item) == id then item.(quantity := item.quantity + 1) else item
  }

  function BumpAll(cart: Cart, id: string): (r: Cart)
    ensures |r| == |cart|
    ensures forall i :: 0 <= i < |cart| ==> r[i] == Bump(cart[i], id)
  {
    if cart == [] then [] else [Bump(cart[0], id)] + BumpAll(cart[1..], id)
  }

  /** `handleAddToCart`: a dog already in the cart has every line for it
      incremented (each line keeps its own fields); a new dog is appended with
      quantity 1. */
  function AddToCart(cart: Cart, dog: Dog): (r: Cart)
    ensures InCart(cart, dog.id) ==>
              && |r| == |cart|
              && (forall i :: 0 <= i < |cart| ==> r[i].dog == cart[i].dog)
              && (forall i :: 0 <= i < |cart| && ItemId(cart[i]) == dog.id ==> r[i].quantity == cart[i].quantity + 1)
              && (forall i :: 0 <= i < |cart| && ItemId(cart[i]) != dog.id ==> r[i] == cart[i])
    ensures !InCart(cart, dog.id) ==> r == cart + [CartItem(dog, 1)]
    ensures InCart(r, dog.id)
  {
    if InCart(cart, dog.id) then BumpAll(cart, dog.id)
    else
      var r := cart + [CartItem(dog, 1)];
      assert ItemId(r[|cart|]) == dog.id;
      r
  }

  /** With unique ids, adding a dog already at index `k` increments only that
      line by one: length, order and every other line are unchanged. */
  lemma AddExistingBumpsOne(cart: Cart, dog: Dog, k: int)
    requires UniqueIds(cart)
    requires 0 <= k < |cart| && ItemId(cart[k]) == dog.id
    ensures AddToCart(cart, dog) == cart[k := cart[k].(quantity := cart[k].quantity + 1)]
  {
    var r := AddToCart(cart, dog);
    var e := cart[k := cart[k].(quantity := cart[k].quantity + 1)];
    forall i | 0 <= i < |cart|
      ensures r[i] == e[i]
    {
      if i != k {
        assert ItemId(cart[i]) != dog.id by {
          if i < k { assert ItemId(cart[i]) != ItemId(cart[k]); }
          else { assert ItemId(cart[k]) != ItemId(cart[i]); }
        }
      }
    }
  }

  /** Adding keeps the ids of the cart unique. */
  lemma AddKeepsIdsUnique(cart: Cart, dog: Dog)
    requires UniqueIds(cart)
    ensures UniqueIds(AddToCart(cart, dog))
  {
    var r := AddToCart(cart, dog);
    if !InCart(cart, dog.id) {
      forall i, j | 0 <= i < j < |r|
        ensures ItemId(r[i]) != ItemId(r[j])
      {
        if j == |cart| {
          assert ItemId(r[j]) == dog.id;
          assert r[i] == cart[i];
        }
      }
    }
  }

  /** Adding a dog raises the cart total by one unit price: the new dog's, or
      that of the line already holding it. */
  lemma AddRaisesTotal(cart: Cart, dog: Dog)
    requires UniqueIds(cart)
    ensures !InCart(cart, dog.id) ==> CartView.Total(AddToCart(cart, dog)) == CartView.Total(cart) + dog.price
    ensures forall k :: 0 <= k < |cart| && ItemId(cart[k]) == dog.id ==>
              CartView.Total(AddToCart(cart, dog)) == CartView.Total(cart) + cart[k].dog.price
  {
    CartView.TotalIsSumOfLines(cart);
    CartView.TotalIsSumOfLines(AddToCart(cart, dog));
    if !InCart(cart, dog.id) {
      CartView.SumOfLinesAppend(cart, CartItem(dog, 1));
    } else {
      forall k | 0 <= k < |cart| && ItemId(cart[k]) == dog.id
        ensures CartView.Total(AddToCart(cart, dog)) == CartView.Total(cart) + cart[k].dog.price
      {
        AddExistingBumpsOne(cart, dog, k);
        CartView.SumOfLinesUpdate(cart, k, cart[k].(quantity := cart[k].quantity + 1));
      }
    }
  }

  // ---------------------------------------------------------------------
  // Changing a quantity

  /** `prev.filter((_, i) => i !== index)` over the lines from position `start` on. */
  function DropIndex(cart: Cart, index: int, start: int): (r: Cart)
    ensures 0 <= index - start < |cart| ==> r == cart[..index - start] + cart[index - start + 1..]
    ensures !(0 <= index - start < |cart|) ==> r == cart
    decreases |cart|
  {
    if cart == [] then []
    else if start == index then DropIndex(cart[1..], index, start + 1)
    else [cart[0]] + DropIndex(cart[1..], index, start + 1)
  }

  /** `prev.map((item, i) => i === index ? {...item, quantity} : item)` over
      the lines from position `start` on. */
  function SetQuantityAt(cart: Cart, index: int, quantity: int, start: int): (r: Cart)
    ensures 0 <= index - start < |cart| ==>
              r == cart[index - start := cart[index - start].(quantity := quantity)]
    ensures !(0 <= index - start < |cart|) ==> r == cart
    decreases |cart|
  {
    if cart == [] then []
    else
      var head := if start == index then cart[0].(quantity := quantity) else cart[0];
      [head] + SetQuantityAt(cart[1..], index, quantity, start + 1)
  }

  /** `handleUpdateQuantity(index, quantity)`: a quantity of 0 or less removes
      the line at `index`, a positive one replaces that line's quantity; an
      index outside the cart changes nothing. */
  function UpdateQuantity(cart: Cart, index: int, quantity: int): (r: Cart)
    ensures quantity <= 0 && 0 <= index < |cart| ==> r == cart[..index] + cart[index + 1..]
    ensures quantity > 0 ==>
              && |r| == |cart|
              && (forall i :: 0 <= i < |cart| ==> r[i].dog == cart[i].dog)
              && (forall i :: 0 <= i < |cart| && i != index ==> r[i] == cart[i])
              && (0 <= index < |cart| ==> r[index].quantity == quantity)
    ensures !(0 <= index < |cart|) ==> r == cart
  {
    if quantity <= 0 then DropIndex(cart, index, 0) else SetQuantityAt(cart, index, quantity, 0)
  }

  /** Changing a quantity keeps the ids of the cart unique. */
  lemma UpdateKeepsIdsUnique(cart: Cart, index: int, quantity: int)
    requires UniqueIds(cart)
    ensures UniqueIds(UpdateQuantity(cart, index, quantity))
  {
    var r := UpdateQuantity(cart, index, quantity);
    if quantity <= 0 && 0 <= index < |cart| {
      forall i, j | 0 <= i < j < |r|
        ensures ItemId(r[i]) != ItemId(r[j])
      {
        var i' := if i < index then i else i + 1;
        var j' := if j < index then j else j + 1;
        assert r[i] == cart[i'] && r[j] == cart[j'];
      }
    }
  }

  /** The bin button removes exactly its line and takes its amount off the total. */
  lemma RemoveButtonRemovesLine(cart: Cart, k: int)
    requires 0 <= k < |cart|
    ensures UpdateQuantity(cart, k, CartView.RemoveRequest(cart[k])) == cart[..k] + cart[k + 1..]
    ensures CartView.Total(UpdateQuantity(cart, k, CartView.RemoveRequest(cart[k])))
            == CartView.Total(cart) - CartView.LineAmount(cart[k])
  {
    CartView.TotalIsSumOfLines(cart);
    CartView.TotalIsSumOfLines(cart[..k] + cart[k + 1..]);
    CartView.SumOfLinesRemove(cart, k);
  }

  /** The minus button never removes its line: the quantity stays at least 1. */
  lemma MinusButtonKeepsLine(cart: Cart, k: int)
    requires 0 <= k < |cart|
    ensures |UpdateQuantity(cart, k, CartView.DecrementRequest(cart[k]))| == |cart|
    ensures UpdateQuantity(cart, k, CartView.DecrementRequest(cart[k]))[k].quantity >= 1
  {
  }

  /** The plus button adds one to its line and one unit price to the total. */
  lemma PlusButtonAddsOne(cart: Cart, k: int)
    requires 0 <= k < |cart| && cart[k].quantity >= 0
    ensures UpdateQuantity(cart, k, CartView.IncrementRequest(cart[k])) == cart[k := cart[k].(quantity := cart[k].quantity + 1)]
    ensures CartView.Total(UpdateQuantity(cart, k, CartView.IncrementRequest(cart[k])))
            == CartView.Total(cart) + cart[k].dog.price
  {
    var r := UpdateQuantity(cart, k, CartView.IncrementRequest(cart[k]));
    CartView.TotalIsSumOfLines(cart);
    CartView.TotalIsSumOfLines(r);
    CartView.SumOfLinesUpdate(cart, k, cart[k].(quantity := cart[k].quantity + 1));
  }

  /** Typing into the number field removes the line exactly when the text
      parses to a negative number; otherwise the line stays. */
  lemma TypedQuantityRemovesOnlyNegatives(cart: Cart, k: int, text: string)
    requires 0 <= k < |cart|
    ensures ParseInt(text).Some? && ParseInt(text).value < 0 ==>
              UpdateQuantity(cart, k, CartView.TypedRequest(text)) == cart[..k] + cart[k + 1..]
    ensures !(ParseInt(text).Some? && ParseInt(text).value < 0) ==>
              |UpdateQuantity(cart, k, CartView.TypedRequest(text))| == |cart|
  {
  }

  // ---------------------------------------------------------------------
  // Search

  /** The lower-cased query is part of the lower-cased name or breed. */
  predicate MatchesQuery(dog: Dog, query: string) {
    Contains(Lower(dog.name), Lower(query)) || Contains(Lower(dog.breed), Lower(query))
  }

  /** `filteredDogs`: the dogs matching the search box, in catalogue order. */
  function SearchDogs(dogs: seq<Dog>, query: string): seq<Dog> {
    Filter((d: Dog) => MatchesQuery(d, query), dogs)
  }

  /** The search result is an order-preserving subsequence of the dogs that
      keeps a dog exactly when the query occurs, ignoring case, in its name
      or its breed, and keeps every copy of such a dog. */
  lemma SearchFilterSpec(dogs: seq<Dog>, query: string)
    ensures IsSubseq(SearchDogs(dogs, query), dogs)
    ensures forall d :: d in SearchDogs(dogs, query) <==>
              d in dogs && (OccursIn(Lower(query), Lower(d.name)) || OccursIn(Lower(query), Lower(d.breed)))
    ensures forall d :: multiset(SearchDogs(dogs, query))[d] == if MatchesQuery(d, query) then multiset(dogs)[d] else 0
  {
    var p := (d: Dog) => MatchesQuery(d, query);
    FilterSubseq(p, dogs);
    forall d: Dog
      ensures MatchesQuery(d, query) <==>
                OccursIn(Lower(query), Lower(d.name)) || OccursIn(Lower(query), Lower(d.breed))
    {
      ContainsIffOccurs(Lower(d.name), Lower(query));
      ContainsIffOccurs(Lower(d.breed), Lower(query));
    }
    forall d: Dog
      ensures d in SearchDogs(dogs, query) <==> d in dogs && MatchesQuery(d, query)
    {
      if d in dogs && MatchesQuery(d, query) {
        var i :| 0 <= i < |dogs| && dogs[i] == d;
      }
    }
  }

  /** An empty search box shows every dog. */
  lemma EmptyQueryKeepsAll(dogs: seq<Dog>)
    ensures SearchDogs(dogs, "") == dogs
  {
    forall i | 0 <= i < |dogs|
      ensures MatchesQuery(dogs[i], "")
    {
      ContainsEmpty(Lower(dogs[i].name));
    }
    FilterAll((d: Dog) => MatchesQuery(d, ""), dogs);
  }

  // ---------------------------------------------------------------------
  // Checkout status

  datatype CheckoutStatus = Idle | Sending | Sent | Paid

  /** The page state the checkout flow reads and writes. */
  datatype PageState = PageState(
    cart: Cart,
    status: CheckoutStatus,
    invoiceId: Option<string>,
    currentInvoice: Option<InvoiceModel.Invoice>,
    sendingInvoice: bool,
    pollsInFlight: nat)

  const Initial := PageState([], Idle, None, None, false, 0)

  /** The answer to the invoice POST: the created invoice, or any failure
      (a non-OK status or a network error). */
  datatype GenerateResponse = Created(invoice: InvoiceModel.Invoice) | GenerateFailed

  /** The answer to one poll: the fetched body's `status` field if it has
      one, or a failed fetch. */
  datatype PollResponse = Fetched(status: Option<string>) | FetchFailed

  /** The body POSTed to the invoice endpoint: the customer and the cart. */
  function InvoiceRequestOf(s: PageState, customer: CustomerData): (req: InvoiceApi.InvoiceRequest)
    ensures req.customerData == Some(customer) && req.items == Some(s.cart)
  {
    InvoiceApi.InvoiceRequest(Some(customer), Some(s.cart))
  }

  /** The synchronous start of `handleGenerateInvoice`. */
  function BeginGenerate(s: PageState): (r: PageState)
    ensures r.status == Sending && r.sendingInvoice
    ensures r.cart == s.cart && r.invoiceId == s.invoiceId && r.currentInvoice == s.currentInvoice
    ensures r.pollsInFlight == s.pollsInFlight
  {
    s.(status := Sending, sendingInvoice := true)
  }

  /** The end of `handleGenerateInvoice`: success records the invoice and its
      id and moves to `sent`; failure goes back to `idle` and keeps the old id.
      The cart is kept either way. */
  function FinishGenerate(s: PageState, response: GenerateResponse): (r: PageState)
    ensures !r.sendingInvoice && r.cart == s.cart && r.pollsInFlight == s.pollsInFlight
    ensures response.Created? ==>
              r.status == Sent && r.invoiceId == Some(response.invoice.id)
              && r.currentInvoice == Some(response.invoice)
    ensures response.GenerateFailed? ==>
              r.status == Idle && r.invoiceId == s.invoiceId && r.currentInvoice == s.currentInvoice
  {
    match response
    case Created(inv) =>
      s.(invoiceId := Some(inv.id), currentInvoice := Some(inv), status := Sent, sendingInvoice := false)
    case GenerateFailed =>
      s.(status := Idle, sendingInvoice := false)
  }

  /** The polling interval runs while the status is `sent` and the invoice id
      is a non-empty (truthy) string. */
  predicate Polling(s: PageState) {
    s.status == Sent && s.invoiceId.Some? && s.invoiceId.value != ""
  }

  /** One tick of the interval: while polling, a fetch of the invoice is sent
      and stays in flight until answered. Outside `sent` no interval runs and
      nothing changes. */
  function PollRequest(s: PageState): (r: PageState)
    ensures Polling(s) ==> r == s.(pollsInFlight := s.pollsInFlight + 1)
    ensures !Polling(s) ==> r == s
  {
    if Polling(s) then s.(pollsInFlight := s.pollsInFlight + 1) else s
  }

  /** The answer to one fetch in flight. A fetched status of `paid` sets
      `paid` and empties the cart whatever the page is showing by then: the
      cleanup of the interval stops later ticks but not a fetch already sent.
      Any other answer, a failed fetch included, changes nothing else. With
      nothing in flight no answer can come. */
  function PollAnswer(s: PageState, response: PollResponse): (r: PageState)
    ensures s.pollsInFlight > 0 && response == Fetched(Some("paid")) ==>
              && r.status == Paid && r.cart == []
              && r.pollsInFlight == s.pollsInFlight - 1
              && r.invoiceId == s.invoiceId && r.currentInvoice == s.currentInvoice
              && r.sendingInvoice == s.sendingInvoice
    ensures s.pollsInFlight > 0 && response != Fetched(Some("paid")) ==>
              r == s.(pollsInFlight := s.pollsInFlight - 1)
    ensures s.pollsInFlight == 0 ==> r == s
  {
    if s.pollsInFlight == 0 then s
    else
      var s' := s.(pollsInFlight := s.pollsInFlight - 1);
      if response == Fetched(Some("paid")) then s'.(status := Paid, cart := []) else s'
  }

  /** Everything that can happen to the page. */
  datatype Event =
    | SubmitInvoice(customer: CustomerData)
    | InvoiceAnswered(response: GenerateResponse)
    | PollTick
    | PollAnswered(poll: PollResponse)
    | AddDog(dog: Dog)
    | ChangeQuantity(index: int, quantity: int)

  /** When the page can deliver an event: the invoice form and the quantity
      controls are only rendered while `idle`, the answer only comes to a
      request in flight, a poll answer only to a fetch in flight, while the dog
      grid and the poll timer are always live. */
  predicate Enabled(s: PageState, e: Event) {
    match e
    case SubmitInvoice(_) => s.status == Idle
    case InvoiceAnswered(_) => s.status == Sending
    case PollTick => true
    case PollAnswered(_) => s.pollsInFlight > 0
    case AddDog(_) => true
    case ChangeQuantity(_, _) => s.status == Idle
  }

  function Step(s: PageState, e: Event): PageState {
    if !Enabled(s, e) then s
    else
      match e
      case SubmitInvoice(_) => BeginGenerate(s)
      case InvoiceAnswered(resp) => FinishGenerate(s, resp)
      case PollTick => PollRequest(s)
      case PollAnswered(p) => PollAnswer(s, p)
      case AddDog(d) => s.(cart := AddToCart(s.cart, d))
      case ChangeQuantity(i, q) => s.(cart := UpdateQuantity(s.cart, i, q))
  }

  function Run(s: PageState, events: seq<Event>): PageState
    decreases |events|
  {
    if events == [] then s else Run(Step(s, events[0]), events[1..])
  }

  /** The status edges of the page: `idle → sending`, `sending → sent`,
      `sending → idle` on failure, and `sent → paid`. */
  predicate StatusEdge(a: CheckoutStatus, b: CheckoutStatus) {
    || (a == Idle && b == Sending)
    || (a == Sending && b == Sent)
    || (a == Sending && b == Idle)
    || (a == Sent && b == Paid)
  }

  /** What holds of every state the page reaches: the in-flight flag matches
      the `sending` status, `sent` and `paid` know their invoice, fetches are
      in flight only once `sent`, and the cart never holds two lines for one
      dog nor a line with a quantity below 1. */
  predicate Consistent(s: PageState) {
    && (s.sendingInvoice <==> s.status == Sending)
    && (s.status == Sent || s.status == Paid ==> s.invoiceId.Some?)
    && (s.status == Sent ==> s.currentInvoice.Some? && s.invoiceId == Some(s.currentInvoice.value.id))
    && (s.pollsInFlight > 0 ==> s.status == Sent || s.status == Paid)
    && UniqueIds(s.cart)
    && (forall i :: 0 <= i < |s.cart| ==> s.cart[i].quantity >= 1)
  }

  /** The cart handlers keep the page consistent and leave the status alone. */
  lemma CartStepConsistent(s: PageState, e: Event)
    requires Consistent(s) && (e.AddDog? || e.ChangeQuantity?)
    ensures Step(s, e).status == s.status
    ensures Consistent(Step(s, e))
  {
    var r := Step(s, e);
    assert r == s.(cart := r.cart);
    match e
    case AddDog(d) =>
      AddKeepsIdsUnique(s.cart, d);
      AddKeepsQuantitiesPositive(s.cart, d);
    case ChangeQuantity(i, q) =>
      UpdateKeepsIdsUnique(s.cart, i, q);
      UpdateKeepsQuantitiesPositive(s.cart, i, q);
  }

  /** Adding keeps every quantity at least 1. */
  lemma AddKeepsQuantitiesPositive(cart: Cart, dog: Dog)
    requires forall i :: 0 <= i < |cart| ==> cart[i].quantity >= 1
    ensures forall i :: 0 <= i < |AddToCart(cart, dog)| ==> AddToCart(cart, dog)[i].quantity >= 1
  {
  }

  /** Changing a quantity keeps every quantity at least 1. */
  lemma UpdateKeepsQuantitiesPositive(cart: Cart, index: int, quantity: int)
    requires forall i :: 0 <= i < |cart| ==> cart[i].quantity >= 1
    ensures forall i :: 0 <= i < |UpdateQuantity(cart, index, quantity)| ==>
              UpdateQuantity(cart, index, quantity)[i].quantity >= 1
  {
    var r := UpdateQuantity(cart, index, quantity);
    if quantity <= 0 && 0 <= index < |cart| {
      forall i | 0 <= i < |r|
        ensures r[i].quantity >= 1
      {
        assert r[i] == cart[if i < index then i else i + 1];
      }
    }
  }

  /** Sending and answering the invoice request follow `idle → sending` and
      `sending → sent | idle`, keep the page consistent and keep the cart. */
  lemma GenerateStepConsistent(s: PageState, e: Event)
    requires Consistent(s) && (e.SubmitInvoice? || e.InvoiceAnswered?)
    ensures Step(s, e).status == s.status || StatusEdge(s.status, Step(s, e).status)
    ensures Consistent(Step(s, e))
    ensures Step(s, e).cart == s.cart
  {
  }

  /** A poll tick or answer keeps the status or follows `sent → paid`, and
      keeps the page consistent. */
  lemma PollStepConsistent(s: PageState, e: Event)
    requires Consistent(s) && (e.PollTick? || e.PollAnswered?)
    ensures Step(s, e).status == s.status || (s.status == Sent && Step(s, e).status == Paid)
    ensures Consistent(Step(s, e))
  {
  }

  /** Each step keeps the status or follows one edge, keeps the page
      consistent, and leaves `paid` only by staying in it. */
  lemma StepFollowsEdges(s: PageState, e: Event)
    requires Consistent(s)
    ensures Step(s, e).status == s.status || StatusEdge(s.status, Step(s, e).status)
    ensures Consistent(Step(s, e))
    ensures s.status == Paid ==> Step(s, e).status == Paid
    ensures e.SubmitInvoice? || e.InvoiceAnswered? ==> Step(s, e).cart == s.cart
  {
    if e.AddDog? || e.ChangeQuantity? {
      CartStepConsistent(s, e);
    } else if e.SubmitInvoice? || e.InvoiceAnswered? {
      GenerateStepConsistent(s, e);
    } else {
      PollStepConsistent(s, e);
    }
  }

  /** Every state reachable from the empty page is consistent, and once
      `paid` the page stays `paid`. */
  lemma {:induction false} RunStaysConsistent(s: PageState, events: seq<Event>)
    requires Consistent(s)
    ensures Consistent(Run(s, events))
    ensures s.status == Paid ==> Run(s, events).status == Paid
    decreases |events|
  {
    if events != [] {
      StepFollowsEdges(s, events[0]);
      RunStaysConsistent(Step(s, events[0]), events[1..]);
    }
  }

  /** Every state the page reaches from its first render is consistent. */
  lemma ReachableConsistent(events: seq<Event>)
    ensures Consistent(Run(Initial, events))
  {
    RunStaysConsistent(Initial, events);
  }

  /** A late `paid` answer, sent before the page turned `paid` and arriving
      after a dog was added again, empties the refilled cart. */
  lemma LatePaidAnswerEmptiesCart(s: PageState, dog: Dog)
    requires Consistent(s) && s.status == Paid && s.pollsInFlight > 0
    ensures Step(s, AddDog(dog)).cart != []
    ensures Run(s, [AddDog(dog), PollAnswered(Fetched(Some("paid")))]).cart == []
  {
    var s1 := Step(s, AddDog(dog));
    assert InCart(s1.cart, dog.id);
    assert Run(s, [AddDog(dog), PollAnswered(Fetched(Some("paid")))])
        == Run(s1, [PollAnswered(Fetched(Some("paid")))]);
  }

  /** On a reachable page every line has a quantity of at least 1, so the
      plus button adds exactly one to its line and one unit price to the total,
      and the minus button never asks for more than the line has. */
  lemma ButtonsOnConsistentPage(s: PageState, k: int)
    requires Consistent(s) && 0 <= k < |s.cart|
    ensures UpdateQuantity(s.cart, k, CartView.IncrementRequest(s.cart[k]))
            == s.cart[k := s.cart[k].(quantity := s.cart[k].quantity + 1)]
    ensures CartView.Total(UpdateQuantity(s.cart, k, CartView.IncrementRequest(s.cart[k])))
            == CartView.Total(s.cart) + s.cart[k].dog.price
    ensures CartView.DecrementRequest(s.cart[k]) <= s.cart[k].quantity
  {
    PlusButtonAddsOne(s.cart, k);
  }

  /** The invoice button follows the cart: adding a dog enables it, a `paid`
      answer disables it, and a disabled button means a total of 0. */
  lemma GenerateButtonFollowsCart(s: PageState, dog: Dog)
    ensures !CartView.GenerateDisabled(AddToCart(s.cart, dog))
    ensures s.pollsInFlight > 0 ==> CartView.GenerateDisabled(PollAnswer(s, Fetched(Some("paid"))).cart)
    ensures CartView.GenerateDisabled(s.cart) ==> CartView.Total(s.cart) == 0
  {
    CartView.TotalIsSumOfLines(s.cart);
  }

  /** The invoice the server creates from the page's request carries the
      total the cart displayed when the form was sent. */
  lemma InvoiceMatchesDisplayedTotal(s: PageState, customer: CustomerData, store: InvoiceApi.Store,
                                     newId: string, now: int, emailSent: bool)
    requires InvoiceApi.HandleCreate("POST", InvoiceRequestOf(s, customer), store, newId, now, emailSent).code == 201
    ensures InvoiceApi.HandleCreate("POST", InvoiceRequestOf(s, customer), store, newId, now, emailSent)
              .invoice.value.totalAmount == CartView.Total(s.cart)
  {
  }
}

=== FILE: tabs.dfy ===
/** The breed tabs above the dog grid: one `all` tab followed by each breed
    once, the dogs shown for the active tab, and the tab labels. */
module Tabs {
  import opened Common
  import opened Catalog
  import opened Text

  /** The tab that shows every dog, and the tab active at first. */
  const AllTab := "all"
  const InitialTab := AllTab

  /** The breed of every dog, in catalogue order. */
  function BreedsOf(dogs: seq<Dog>): (r: seq<string>)
    ensures |r| == |dogs|
    ensures forall i :: 0 <= i < |dogs| ==> r[i] == dogs[i].breed
  {
    seq(|dogs|, i requires 0 <= i < |dogs| => dogs[i].breed)
  }

  /** `['all', ...new Set(dogs.map(dog => dog.breed))]`. */
  function BreedTabs(dogs: seq<Dog>): (tabs: seq<string>)
    ensures |tabs| >= 1 && tabs[0] == AllTab
    ensures forall i :: 0 <= i < |dogs| ==> dogs[i].breed in tabs[1..]
    ensures forall i :: 1 <= i < |tabs| ==> tabs[i] in BreedsOf(dogs)
    ensures forall i, j :: 1 <= i < j < |tabs| ==> tabs[i] != tabs[j]
  {
    var breeds := BreedsOf(dogs);
    var distinct := Dedup(breeds);
    var tabs := [AllTab] + distinct;
    assert tabs[1..] == distinct;
    assert forall i :: 0 <= i < |dogs| ==> breeds[i] in distinct;
    assert forall i :: 1 <= i < |tabs| ==> tabs[i] == distinct[i - 1];
    tabs
  }

  /** The breed tabs come in order of each breed's first appearance in the
      catalogue, and that is the only list of the catalogue's breeds in that
      order: any such list is exactly the tabs after `all`. */
  lemma BreedTabsInOrder(dogs: seq<Dog>)
    ensures InFirstAppearanceOrder(BreedsOf(dogs), BreedTabs(dogs)[1..])
    ensures IsSubseq(BreedTabs(dogs)[1..], BreedsOf(dogs))
    ensures forall other: seq<string> ::
              InFirstAppearanceOrder(BreedsOf(dogs), other)
              && (forall b :: b in other <==> b in BreedsOf(dogs))
              ==> other == BreedTabs(dogs)[1..]
  {
    var breeds := BreedsOf(dogs);
    var tabs := BreedTabs(dogs)[1..];
    assert tabs == Dedup(breeds);
    DedupFirstAppearance(breeds);
    DedupSubseq(breeds);
    forall other: seq<string> |
      InFirstAppearanceOrder(breeds, other) && (forall b :: b in other <==> b in breeds)
      ensures other == tabs
    {
      forall b
        ensures b in other <==> b in tabs
      {
        if b in breeds {
          var i :| 0 <= i < |breeds| && breeds[i] == b;
        }
      }
      FirstAppearanceUnique(breeds, other, tabs);
    }
  }

  /** The dogs the grid shows: all of them on the `all` tab, otherwise those
      of the active breed, in catalogue order. */
  function ShownDogs(dogs: seq<Dog>, active: string): (r: seq<Dog>)
    ensures active == AllTab ==> r == dogs
    ensures active != AllTab ==> forall i :: 0 <= i < |r| ==> r[i].breed == active && r[i] in dogs
    ensures active != AllTab ==> forall i :: 0 <= i < |dogs| && dogs[i].breed == active ==> dogs[i] in r
  {
    if active == AllTab then dogs else Filter((d: Dog) => d.breed == active, dogs)
  }

  /** The grid first shows the whole catalogue. */
  lemma InitialTabShowsAll(dogs: seq<Dog>)
    ensures InitialTab in BreedTabs(dogs)
    ensures ShownDogs(dogs, InitialTab) == dogs
  {
  }

  /** A breed tab keeps the catalogue order and every copy of its dogs. */
  lemma ShownDogsInOrder(dogs: seq<Dog>, active: string)
    ensures IsSubseq(ShownDogs(dogs, active), dogs)
    ensures active != AllTab ==>
              forall d :: multiset(ShownDogs(dogs, active))[d] == if d.breed == active then multiset(dogs)[d] else 0
  {
    if active == AllTab {
      SubseqRefl(dogs);
    } else {
      FilterSubseq((d: Dog) => d.breed == active, dogs);
    }
  }

  /** No tab is empty: every tab of a non-empty catalogue shows some dog. */
  lemma EveryTabShowsADog(dogs: seq<Dog>, tab: string)
    requires tab in BreedTabs(dogs)
    requires dogs != []
    ensures ShownDogs(dogs, tab) != []
  {
    var tabs := BreedTabs(dogs);
    if tab != AllTab {
      var k :| 0 <= k < |tabs| && tabs[k] == tab;
      assert tab in tabs[1..] by { assert k >= 1 && tabs[1..][k - 1] == tab; }
      var i :| 0 <= i < |dogs| && dogs[i].breed == tab;
      assert dogs[i] in ShownDogs(dogs, tab);
    }
  }

  /** A tab's label: the breed with its first character upper-cased. */
  function TabLabel(breed: string): (caption: string)
    ensures |caption| == |breed|
    ensures breed != [] ==> caption[0] == UpperChar(breed[0]) && caption[1..] == breed[1..]
  {
    Capitalize(breed)
  }

  /** A label differs from its breed only in case: breeds that differ other
      than in case get different labels, and labelling a label changes nothing. */
  lemma TabLabelOnlyChangesCase(breed: string, other: string)
    ensures Lower(TabLabel(breed)) == Lower(breed)
    ensures Lower(breed) != Lower(other) ==> TabLabel(breed) != TabLabel(other)
    ensures TabLabel(TabLabel(breed)) == TabLabel(breed)
  {
    CapitalizeOnlyChangesCase(breed);
    CapitalizeOnlyChangesCase(other);
  }
}

=== FILE: text.dfy ===
/** The JavaScript string primitives the storefront relies on, restricted to
    what its logic needs: ASCII case mapping (`toLowerCase`, `toUpperCase`),
    substring search (`includes`), integer printing (`Number.prototype.toString`)
    and `parseInt` without a radix. */
module Text {
  import opened Common

  /** `toLowerCase` on one character (ASCII letters only). */
  function LowerChar(c: char): char {
    if 'A' <= c <= 'Z' then (c as int + 32) as char else c
  }

  /** `toUpperCase` on one character (ASCII letters only). */
  function UpperChar(c: char): char {
    if 'a' <= c <= 'z' then (c as int - 32) as char else c
  }

  function Lower(s: string): (r: string)
    ensures |r| == |s|
    ensures forall i :: 0 <= i < |s| ==> r[i] == LowerChar(s[i])
  {
    seq(|s|, i requires 0 <= i < |s| => LowerChar(s[i]))
  }

  /** Lower-casing is idempotent, so comparing lower-cased strings is
      insensitive to the case of either side. */
  lemma LowerIdempotent(s: string)
    ensures Lower(Lower(s)) == Lower(s)
  {
    assert forall i :: 0 <= i < |s| ==> LowerChar(LowerChar(s[i])) == LowerChar(s[i]);
  }

  predicate StartsWith(s: string, prefix: string) {
    |prefix| <= |s| && s[..|prefix|] == prefix
  }

  /** `s.includes(sub)`: scans the start positions left to right. */
  predicate Contains(s: string, sub: string)
    decreases |s|
  {
    StartsWith(s, sub) || (|s| > 0 && Contains(s[1..], sub))
  }

  /** `sub` occurs in `s` starting at index `i`. */
  predicate OccursAt(sub: string, s: string, i: int) {
    0 <= i && i + |sub| <= |s| && s[i..i + |sub|] == sub
  }

  /** `sub` occurs in `s` at some position. */
  ghost predicate OccursIn(sub: string, s: string) {
    exists i :: OccursAt(sub, s, i)
  }

  /** What the scan finds occurs in `s`. */
  lemma {:induction false} ContainsOccurs(s: string, sub: string)
    requires Contains(s, sub)
    ensures OccursIn(sub, s)
    decreases |s|
  {
    if StartsWith(s, sub) {
      assert OccursAt(sub, s, 0);
    } else {
      ContainsOccurs(s[1..], sub);
      var i :| OccursAt(sub, s[1..], i);
      assert s[1..][i..i + |sub|] == s[i + 1..i + 1 + |sub|];
      assert OccursAt(sub, s, i + 1);
    }
  }

  /** The scan finds every occurrence, whatever its position. */
  lemma {:induction false} OccursContains(s: string, sub: string, i: int)
    requires OccursAt(sub, s, i)
    ensures Contains(s, sub)
    decreases i
  {
    if i == 0 {
      assert StartsWith(s, sub);
    } else {
      assert s[1..][i - 1..i - 1 + |sub|] == s[i..i + |sub|];
      OccursContains(s[1..], sub, i - 1);
    }
  }

  /** The scan finds `sub` exactly when it occurs somewhere in `s`. */
  lemma ContainsIffOccurs(s: string, sub: string)
    ensures Contains(s, sub) <==> OccursIn(sub, s)
  {
    if Contains(s, sub) {
      ContainsOccurs(s, sub);
    }
    if OccursIn(sub, s) {
      var i :| OccursAt(sub, s, i);
      OccursContains(s, sub, i);
    }
  }

  /** Every string includes the empty string. */
  lemma ContainsEmpty(s: string)
    ensures Contains(s, "")
  {
  }

  /** `s.charAt(0).toUpperCase() + s.slice(1)`: the first character
      upper-cased, the rest untouched; the empty string stays empty. */
  function Capitalize(s: string): (r: string)
    ensures |r| == |s|
    ensures s != [] ==> r[1..] == s[1..]
    ensures s != [] ==> r[0] == UpperChar(s[0])
  {
    if s == [] then [] else [UpperChar(s[0])] + s[1..]
  }

  /** Capitalising changes case only: lower-casing cannot tell the result
      from the input, and capitalising again changes nothing. */
  lemma CapitalizeOnlyChangesCase(s: string)
    ensures Lower(Capitalize(s)) == Lower(s)
    ensures Capitalize(Capitalize(s)) == Capitalize(s)
  {
    if s != [] {
      assert LowerChar(UpperChar(s[0])) == LowerChar(s[0]);
      assert UpperChar(UpperChar(s[0])) == UpperChar(s[0]);
      assert forall i :: 1 <= i < |s| ==> Lower(Capitalize(s))[i] == LowerChar(s[i]);
    }
  }

  // ---------------------------------------------------------------------
  // Integers as text

  /** The digit value of a character in bases up to 36; 36 for a non-digit. */
  function DigitValue(c: char): nat {
    if '0' <= c <= '9' then c as int - '0' as int
    else if 'a' <= c <= 'z' then c as int - 'a' as int + 10
    else if 'A' <= c <= 'Z' then c as int - 'A' as int + 10
    else 36
  }

  function DecimalDigit(d: nat): (c: char)
    requires d < 10
    ensures DigitValue(c) == d
  {
    ('0' as int + d) as char
  }

  /** Decimal numeral of `n`, without leading zeros. */
  function NatToString(n: nat): (s: string)
    ensures |s| >= 1
    ensures forall i :: 0 <= i < |s| ==> DigitValue(s[i]) < 10
    ensures s[0] == '0' ==> n == 0 && |s| == 1
  {
    if n < 10 then [DecimalDigit(n)]
    else NatToString(n / 10) + [DecimalDigit(n % 10)]
  }

  /** `n.toString()` for an integral number. */
  function IntToString(n: int): (s: string)
    ensures |s| >= 1
  {
    if n < 0 then "-" + NatToString(-n) else NatToString(n)
  }

  /** The value of a run of digits in base `radix`, most significant first. */
  function DigitsValue(s: string, radix: nat): nat {
    if s == [] then 0
    else DigitsValue(s[..|s| - 1], radix) * radix + DigitValue(s[|s| - 1])
  }

  /** Length of the longest prefix of `s` made of base-`radix` digits. */
  function DigitRun(s: string, radix: nat): (k: nat)
    ensures k <= |s|
    ensures forall i :: 0 <= i < k ==> DigitValue(s[i]) < radix
    ensures k < |s| ==> DigitValue(s[k]) >= radix
  {
    if s == [] || DigitValue(s[0]) >= radix then 0
    else 1 + DigitRun(s[1..], radix)
  }

  /** The characters `parseInt` skips before the sign: white space and line
      terminators, as ECMAScript defines them. */
  predicate IsJsSpace(c: char) {
    var n := c as int;
    n == 0x09 || n == 0x0A || n == 0x0B || n == 0x0C || n == 0x0D || n == 0x20
    || n == 0xA0 || n == 0x1680 || (0x2000 <= n <= 0x200A) || n == 0x2028
    || n == 0x2029 || n == 0x202F || n == 0x205F || n == 0x3000 || n == 0xFEFF
  }

  function TrimStart(s: string): (r: string)
    ensures |r| <= |s| && r == s[|s| - |r|..]
    ensures r == [] || !IsJsSpace(r[0])
    ensures forall i :: 0 <= i < |s| - |r| ==> IsJsSpace(s[i])
  {
    if s != [] && IsJsSpace(s[0]) then TrimStart(s[1..]) else s
  }

  /** The unsigned part of `parseInt`: a `0x`/`0X` prefix selects base 16,
      otherwise base 10, and the longest run of digits that follows is the
      value; no digits at all is NaN, here `None`. */
  function ParseMagnitude(u: string): Option<nat> {
    var hex := |u| >= 2 && u[0] == '0' && (u[1] == 'x' || u[1] == 'X');
    var radix := if hex then 16 else 10;
    var digits := if hex then u[2..] else u;
    var k := DigitRun(digits, radix);
    if k == 0 then None else Some(DigitsValue(digits[..k], radix))
  }

  /** `parseInt` after the white space: one optional sign, then the magnitude. */
  function ParseSigned(t: string): Option<int> {
    var negative := |t| > 0 && t[0] == '-';
    var unsigned := if |t| > 0 && (t[0] == '-' || t[0] == '+') then t[1..] else t;
    match ParseMagnitude(unsigned)
    case None => None
    case Some(v) => Some(if negative then -(v as int) else v as int)
  }

  /** `parseInt(s)` with no radix: leading white space is skipped first. */
  function ParseInt(s: string): Option<int> {
    ParseSigned(TrimStart(s))
  }

  /** Reading back a printed natural number gives the number. */
  lemma {:induction false} NatToStringValue(n: nat)
    ensures DigitsValue(NatToString(n), 10) == n
  {
    if n >= 10 {
      NatToStringValue(n / 10);
      var s := NatToString(n);
      assert s[..|s| - 1] == NatToString(n / 10);
    }
  }

  /** A digit string is read to its end. */
  lemma {:induction false} DigitRunAll(s: string)
    requires forall i :: 0 <= i < |s| ==> DigitValue(s[i]) < 10
    ensures DigitRun(s, 10) == |s|
  {
    if s != [] {
      DigitRunAll(s[1..]);
    }
  }

  /** The magnitude of a printed natural number is that number. */
  lemma MagnitudeRoundTrip(n: nat)
    ensures ParseMagnitude(NatToString(n)) == Some(n)
  {
    var digits := NatToString(n);
    assert !(|digits| >= 2 && digits[0] == '0');
    DigitRunAll(digits);
    NatToStringValue(n);
    assert digits[..|digits|] == digits;
  }

  /** A decimal digit is neither white space nor a sign. */
  lemma DigitIsPlain(c: char)
    requires DigitValue(c) < 10
    ensures !IsJsSpace(c) && c != '-' && c != '+'
  {
  }

  /** Text that does not start with white space is not trimmed. */
  lemma TrimStartPlain(s: string)
    requires s != [] && !IsJsSpace(s[0])
    ensures TrimStart(s) == s
  {
  }

  /** A leading minus negates the magnitude that follows it. */
  lemma ParseSignedMinus(digits: string, v: nat)
    requires ParseMagnitude(digits) == Some(v)
    ensures ParseSigned("-" + digits) == Some(-(v as int))
  {
    assert ("-" + digits)[1..] == digits;
  }

  /** Without a sign the magnitude is the value. */
  lemma ParseSignedPlain(digits: string, v: nat)
    requires digits != [] && digits[0] != '-' && digits[0] != '+'
    requires ParseMagnitude(digits) == Some(v)
    ensures ParseSigned(digits) == Some(v)
  {
  }

  /** `parseInt(n.toString()) === n` for every integer `n`. */
  lemma ParseIntRoundTrip(n: int)
    ensures ParseInt(IntToString(n)) == Some(n)
  {
    var a := if n < 0 then -n else n;
    var digits := NatToString(a);
    DigitIsPlain(digits[0]);
    MagnitudeRoundTrip(a);
    if n < 0 {
      assert IntToString(n) == "-" + digits;
      TrimStartPlain("-" + digits);
      ParseSignedMinus(digits, a);
    } else {
      assert IntToString(n) == digits;
      TrimStartPlain(digits);
      ParseSignedPlain(digits, a);
    }
  }
}
